=== FILE: README.md ===
# Nonogram line solver, modelled in Dafny

This project models the core of `nonograms.rs`, a nonogram solver. It
proves properties of that model.

A nonogram is a grid of cells, each Undecided, Empty or Filled. Every row
and every column carries a clue: the lengths of its filled runs, in order.

The solver works line by line:

- It generates every placement ("candidate mask") of each line's clue.
- It then repeats two steps until no cell is Undecided:
  - a *consensus step* writes into the grid every cell on which all of a
    line's remaining candidates agree;
  - a *filter step* drops the candidates the grid now rules out.

A small parser reads puzzles in the `nonogram-db` text format. It fills a
builder that checks the clue counts against the declared dimensions.

Modules, one per concern of the source:

| module | file | models |
|---|---|---|
| `Results` | results.dfy | `Option` and `Result` |
| `Seqs` | seqs.dfy | sums, repetition, duplicate-freedom and subsequences of sequences |
| `Cells` | cells.dfy | `CellState`, `consensus_eq`, `accepts`, `From<bool>` (src/nonogram.rs) |
| `Grid` | grid.dfy | `Nonogram`: `new`, `xy_to_index`, indexing, `row`, `column`, `clear_solution` |
| `Builder` | builder.dfy | `NonogramBuilder`: `new`, `width`, `height`, `push_*_constraint`, `validate`, `build` |
| `Masks` | masks.dfy | `into_mask`, and a decoder reading a mask's runs and gaps back |
| `Generation` | generation.dfy | `make_candidates` and `candidates` |
| `Reduction` | reduction.dfy | `find_consensus`, `can_place`, `Vec::retain` |
| `Solving` | solver.dfy | `Solver::new`, `consensus_step`, `filter_step`, `solve` |
| `Correctness` | correctness.dfy | soundness of the solver against any solution of the puzzle |
| `Examples` | examples.dfy | the placement list from the solver's documentation, and two small puzzles run through `solve` |
| `Text` | text.dfy | `str::trim`, `find(' ')`, `split`, `parse::<usize>` |
| `Parsing` | parser.dfy | `Parser`: `new`, the line loop of `parse`, `parse_header_line`, `parse_constraint_line`, `unquote` |

The central results:

- **Generation.** For a clue of positive runs, `candidates` yields
  exactly the decided masks of the line's length whose filled runs spell
  out the clue. Each mask appears exactly once. The puzzle format has no
  empty clue line, so a blank line is written as the lone clue `0`. For
  that clue `candidates` yields only the all-Empty line, repeated once
  per gap vector (`Examples.CandidatesOfZeroOnTwo`). A 0 among other
  runs is not a meaningful clue and is not covered.
- **Soundness.** Suppose some grid `sol` is compatible with the current
  grid and has each of its lines among the candidates. Then a round keeps
  both facts, `solve` never panics, and when `solve` finishes the grid is
  `sol`.
- **Uniqueness.** On a puzzle whose clues are positive runs or the lone
  `0`, a run of `solve` that finishes means the puzzle has at most one
  solution.
- **Non-termination.** When a round changes nothing and cells are still
  Undecided, the loop never ends. The two-by-two puzzle whose solutions are
  the two diagonals is such a case.

## Model

| member | source | states |
|---|---|---|
| Cells.FromBool | src/nonogram.rs:116-123 | the converted cell is always decided, and it is Filled exactly when the flag is true |
| Cells.ConsensusEq | src/nonogram.rs:131-137 | the consensus of two cells is their greatest lower bound under `accepts`: it accepts both, and any cell accepting both accepts it |
| Cells.AcceptsIsPartialOrder | src/nonogram.rs:146-149 | `accepts` is reflexive, antisymmetric and transitive; Undecided accepts everything; a decided cell accepts only itself |
| Cells.ConsensusEqAlgebra | src/nonogram.rs:131-137 | the consensus is commutative, associative and idempotent, so folding it over a set does not depend on the order |
| Grid.New | src/nonogram.rs:18-26 | a new grid has the given dimensions and constraints and `width * height` cells, all Undecided; the column clues are the third argument and the row clues the fourth |
| Grid.XyToIndexBijective | src/nonogram.rs:64-67 | inside the grid, row-major addressing stays below `width * height` and never maps two cells to the same index |
| Grid.SetChangesOnlyThatCell | src/nonogram.rs:100-105 | writing through `IndexMut` changes the addressed cell and no other |
| Grid.Row | src/nonogram.rs:56-62 | `row(y)` is None exactly past the last row; otherwise it is `width` cells long and its x-th cell is cell (x, y) |
| Grid.Column | src/nonogram.rs:42-52 | `column(x)` is None exactly past the last column; otherwise it is `height` cells long and its y-th cell is cell (x, y) |
| Grid.RowColumnAgree | src/nonogram.rs:42-62 | the row view and the column view of one grid report the same value for every cell |
| Grid.ClearSolution | src/nonogram.rs:87-89 | clearing keeps the puzzle and the number of cells and makes every cell Undecided |
| Grid.ClearSolutionForgetsCells | src/nonogram.rs:87-89 | clearing is idempotent, and its result does not depend on the cells it is given |
| Grid.CellsDetermineGrid | src/nonogram.rs:92-98 | two grids of one shape that agree on every (x, y) have the same cell vector |
| Builder.NewBuilder | src/nonogram.rs:169-176 | a new builder has no dimensions and no constraints |
| Builder.SetWidth | src/nonogram.rs:179-187 | setting the width fails with `WidthAlreadySet` exactly when a width is already set; on success it records the width and changes nothing else |
| Builder.SetHeight | src/nonogram.rs:189-197 | setting the height fails with `HeightAlreadySet` exactly when a height is already set; on success it records the height and changes nothing else |
| Builder.PushRowConstraint | src/nonogram.rs:199-202 | the constraint is appended after the existing row constraints; the columns and the dimensions are unchanged |
| Builder.PushColConstraint | src/nonogram.rs:204-207 | the constraint is appended after the existing column constraints; the rows and the dimensions are unchanged |
| Builder.Validate | src/nonogram.rs:209-219 | validation succeeds exactly when both dimensions are set, the height equals the number of row constraints and the width equals the number of column constraints; otherwise the error is `Invalid` |
| Builder.Build | src/nonogram.rs:222-231 | building succeeds exactly when validation does; the grid then has the builder's constraints, matching dimensions and only Undecided cells |
| Builder.DimensionsAreSetOnce | src/nonogram.rs:179-197 | a second width or height fails, and setting the height does not disturb the width already set |
| Masks.IntoMask | src/solver.rs:158-170 | the mask is as long as all gaps and runs together, and every cell is decided |
| Masks.DecodeIntoMask | src/solver.rs:158-170 | reading the runs and the gaps back from a mask built from positive runs and non-empty separators returns exactly those runs and gaps |
| Masks.IntoMaskOfDecode | src/solver.rs:158-170 | every decided mask is the mask built from its own gaps and runs, and those form a legal placement filling the whole line |
| Generation.MakeCandidatesSound | src/solver.rs:173-197 | every vector `make_candidates` pushes extends its base with a legal filling of the remaining gap slots, using exactly the blanks given |
| Generation.MakeCandidatesComplete | src/solver.rs:173-197 | every legal filling of the remaining gap slots is pushed |
| Generation.MakeCandidatesDistinct | src/solver.rs:173-197 | no vector is pushed twice |
| Generation.GapVectorsExactlyOnce | src/solver.rs:173-197 | called with no base, `make_candidates` yields each legal gap vector exactly once and nothing else |
| Generation.NoGapVectorsWhenOvercrowded | src/solver.rs:187-197 | with fewer blanks than the separators need, no gap vector is produced |
| Generation.Candidates | src/solver.rs:134-154 | every candidate is a fully decided mask as long as the line |
| Generation.CandidatesArePlacements | src/solver.rs:134-154 | with positive runs, a mask is a candidate exactly when it is decided, as long as the line, and its filled runs read left to right are the clue |
| Generation.CandidatesOfBlankClue | src/solver.rs:134-154 | for the lone clue `0`, a mask is a candidate exactly when it is the all-Empty line of the line's length |
| Generation.CandidatesAreClueRuns | src/solver.rs:134-154 | for a clue of positive runs or the lone `0`, a mask is a candidate exactly when it is decided, as long as the line, and its runs are the ones the clue asks for (none for `0`) |
| Generation.CandidatesDistinct | src/solver.rs:134-154 | with positive runs, no candidate appears twice |
| Generation.CandidatesShape | src/solver.rs:147-153 | the i-th candidate is the mask of the i-th generated gap vector, in generation order |
| Generation.CandidatesOfEmptyConstraint | src/solver.rs:134-154 | an empty clue has one placement: the all-Empty line |
| Generation.CandidatesOfOvercrowdedLine | src/solver.rs:134-154 | when the runs fit but their separators do not, there is no candidate |
| Reduction.FindConsensus | src/solver.rs:118-130 | at each position the consensus is the value every candidate shares there, or Undecided if they disagree; it is no longer than the shortest candidate |
| Reduction.ConsensusAcceptsMembers | src/solver.rs:118-130 | the consensus accepts every candidate it was computed from |
| Reduction.ConsensusIgnoresOrder | src/solver.rs:118-130 | two sets of equal-length masks with the same members have the same consensus |
| Reduction.CanPlace | src/solver.rs:204-205 | a candidate fits a line exactly when the line accepts it at every position both have |
| Reduction.Retain | src/solver.rs:106 | filtering keeps, in their original order, exactly the candidates that fit the line, each as many times as it occurred (repeated masks such as the all-empty ones of a 0 clue included), and drops every other |
| Reduction.RetainKeepsAll | src/solver.rs:106 | a line that rules out no candidate keeps the whole set, order included |
| Reduction.RetainMonotone | src/solver.rs:102-113 | the more the grid knows about a line, the fewer candidates survive: filtering against a refined line keeps a subsequence of what the coarser line keeps |
| Solving.New | src/solver.rs:44-58 | a new solver holds one candidate set per row and per column, all masks decided and as long as their line |
| Solving.NewSatisfiesInv | src/solver.rs:44-58 | a solver built from a validated grid has the shape every later step relies on |
| Solving.NewHoldsEveryPlacement | src/solver.rs:44-58 | when every clue is positive runs or the lone `0`, a new solver's set for a line holds exactly the placements of that line's clue, the all-Empty line for `0` |
| Solving.PaintRows | src/solver.rs:76-84 | the row pass fails exactly when some row has no candidate left, naming it; otherwise every decided consensus cell overwrites the grid and nothing else changes |
| Solving.PaintColumns | src/solver.rs:87-95 | the column pass fails exactly when some column has no candidate left, naming it; otherwise every decided consensus cell overwrites the grid and nothing else changes |
| Solving.ConsensusStep | src/solver.rs:74-96 | the step fails exactly when some line has no candidate; otherwise each cell takes its column's consensus if decided, else its row's consensus if decided, else keeps its value; the candidate sets are untouched |
| Solving.ConsensusStepKeepsUndecidedPositions | src/solver.rs:74-96 | a cell on which neither its row's nor its column's candidates agree keeps its value |
| Solving.ConsensusStepIdempotent | src/solver.rs:74-96 | a second consensus step right after the first changes nothing |
| Solving.FilterStep | src/solver.rs:102-113 | the grid is unchanged; each line's new set is a subsequence of the old one and holds exactly the old candidates that fit the grid's line, with the same multiplicity they had |
| Solving.Round | src/solver.rs:63-66 | one loop iteration fails exactly when some line has run out of candidates; otherwise it keeps the puzzle and only removes candidates |
| Solving.SolveLoop | src/solver.rs:63-66 | the loop returns at once when no cell is Undecided; it only removes candidates; it finishes with no Undecided cell, or runs out of fuel with some left |
| Solving.Solve | src/solver.rs:60-68 | `solve` keeps the puzzle and only removes candidates; a finished run leaves no Undecided cell |
| Correctness.SolveIgnoresPriorCells | src/solver.rs:60-62 | because `solve` clears the grid first, its outcome does not depend on cells left by an earlier run |
| Correctness.SolveLoopStep | src/solver.rs:63-66 | with cells left to decide, the loop either panics in this round or continues from the round's result |
| Correctness.SolveLoopFuelMonotone | src/solver.rs:63-66 | more fuel does not change a run that ended without running out |
| Correctness.ConsensusStepSound | src/solver.rs:74-96 | if a solution is compatible with the grid and its lines are all still candidates, the consensus step does not fail and never contradicts it |
| Correctness.FilterStepSound | src/solver.rs:102-113 | a filter step never drops a line of a solution the grid is compatible with |
| Correctness.RoundSound | src/solver.rs:63-66 | a round keeps a compatible, admitted solution compatible and admitted |
| Correctness.DecidedCompatibleIsEqual | src/solver.rs:63 | a grid with no Undecided cell that is compatible with a solution is that solution |
| Correctness.SolveLoopSound | src/solver.rs:63-66 | while a compatible, admitted solution exists, the loop never panics, and if it finishes the grid is that solution |
| Correctness.SolveSound | src/solver.rs:60-68 | if a solution's lines are all candidates, `solve` never panics, and a finished grid is that solution |
| Correctness.SolutionFits | src/solver.rs:134-140 | a solvable puzzle's clues fit their lines, so the unsigned subtraction in `candidates` cannot underflow |
| Correctness.SolverFindsTheSolution | src/solver.rs:44-68 | on a solvable puzzle whose clues are positive runs or the lone `0` (a blank line), a fresh solver never panics, and a finished run leaves the solution |
| Correctness.FinishedMeansUniqueSolution | src/solver.rs:44-68 | on a puzzle whose clues are positive runs or the lone `0`, a finished run means any two solutions are the same grid |
| Correctness.ConsensusStepPaintsNothing | src/solver.rs:74-96 | when no line's consensus decides a cell, the consensus step changes nothing |
| Correctness.FilterStepOfBlankGridKeepsAll | src/solver.rs:102-113 | on a grid of Undecided cells every candidate survives the filter |
| Correctness.RoundFixedWhenNothingIsForced | src/solver.rs:63-66 | on a blank grid where no line's consensus decides a cell, a round changes nothing |
| Correctness.StuckLoopRunsOutOfFuel | src/solver.rs:63-66 | a round that changes nothing while cells are Undecided repeats forever: any fuel runs out on the same solver |
| Correctness.StuckRoundRepeats | src/solver.rs:63-66 | one more round of a stuck loop leaves it where it was |
| Examples.GapVectorsOfTwoRuns | src/solver.rs:173-197 | for two runs and three blanks, the gap vectors are the six listed, in generation order |
| Examples.CandidatesOfOneTwo | src/solver.rs:10-22 | the clue `1 2` on six cells has the six placements the documentation lists, in that order |
| Examples.CandidatesOfOneOnTwo | src/solver.rs:134-154 | a single 1 on two cells has two placements, Filled-Empty then Empty-Filled |
| Examples.GapVectorsOfZeroRun | src/solver.rs:173-197 | for one run and two blanks, the gap vectors are (0, 2), (1, 1) and (2, 0), in generation order |
| Examples.CandidatesOfZeroOnTwo | src/solver.rs:134-154 | the clue 0 on two cells yields the all-Empty line three times, so the lone `0` clue breaks "no duplicates" |
| Examples.NoConsensusOnTwo | src/solver.rs:118-130 | those two placements agree on no cell |
| Examples.DiagonalsNeverFinish | src/solver.rs:60-68 | on the two-by-two puzzle with clue 1 on every line, `solve` never returns: every amount of fuel runs out and the grid stays blank |
| Examples.SingleCellSolvedInOneRound | src/solver.rs:60-68 | on a one-cell puzzle with clue 1 both ways, one round fills the cell and `solve` finishes |
| Text.Trim | src/parser.rs:120 | trimming never lengthens a text, and the result neither starts nor ends with whitespace |
| Text.TrimInfix | src/parser.rs:120 | the trimmed text is an infix of the original with only whitespace before and after it |
| Text.TrimPadding | src/parser.rs:120 | whitespace around a text that has none at its ends is exactly what trimming removes |
| Text.TrimIdempotent | src/parser.rs:120-127 | trimming twice is trimming once |
| Text.TrimEmptyIffWhitespace | src/parser.rs:120-124 | a line trims to nothing exactly when it is all whitespace |
| Text.FindSpace | src/parser.rs:87 | no position exactly when there is no space; otherwise the position of a space with none before it |
| Text.Split | src/parser.rs:125-126 | splitting gives at least one piece, no piece holds the separator, and joining the pieces with it restores the text |
| Text.SplitJoin | src/parser.rs:125-126 | splitting inverts joining pieces that do not hold the separator |
| Text.ParseUsize | src/parser.rs:128 | a value is read exactly when, after an optional `+`, there is at least one ASCII digit, there are only digits, and their value fits a 64-bit `usize`; the value read is the decimal value of those digits, leading zeros included |
| Text.ParseNatToString | src/parser.rs:128 | reading the decimal text of any `usize` value, with or without a leading `+`, gives that value back |
| Text.ParseRejectsNonDigits | src/parser.rs:128 | the empty text, a lone sign and a text not starting with a digit after the sign never parse |
| Parsing.Start | src/parser.rs:61-63 | a new parser is in header mode, has counted no line and holds a fresh builder |
| Parsing.CommandEnd | src/parser.rs:87 | the command is the longest space-free prefix of the line; what follows starts at the first space |
| Parsing.ParseHeaderLine | src/parser.rs:86-116 | a header line fails only with a number or builder error; on success it adds no constraint and keeps any dimension already set |
| Parsing.HeaderOpensSection | src/parser.rs:88-90 | `columns` or `rows`, alone or followed by arguments, switch to that section and change nothing else |
| Parsing.WidthCommand | src/parser.rs:96-100 | a `width` line whose trimmed argument reads as N sets the width to N, or fails with `WidthAlreadySet` if it is already set |
| Parsing.HeightCommand | src/parser.rs:91-95 | a `height` line whose trimmed argument reads as N sets the height to N, or fails with `HeightAlreadySet` if it is already set |
| Parsing.HeaderSetsWidth | src/parser.rs:96-100 | the line `width N` sets the width to N, or fails if it is already set |
| Parsing.HeaderSetsHeight | src/parser.rs:91-95 | the line `height N` sets the height to N, or fails if it is already set |
| Parsing.HeaderNeedsNumber | src/parser.rs:91-100 | `width` or `height` without an argument is a number error |
| Parsing.HeaderIgnoresOtherCommands | src/parser.rs:101-113 | every other command, `goal` included, leaves the parser unchanged |
| Parsing.CollectAll | src/parser.rs:125-129 | collecting succeeds exactly when every piece parsed, and then keeps the values in order |
| Parsing.ParseListOfFormatted | src/parser.rs:125-129 | reading back numbers written comma-separated gives the same numbers |
| Parsing.ParseConstraintLine | src/parser.rs:119-143 | a blank line closes the section; a line left in header mode is not a number list; success keeps the line count and never drops a constraint or dimension; the internal error happens exactly in header mode on a number list, and such a line always gives it |
| Parsing.ParseListOfPadded | src/parser.rs:125-129 | pieces of digits with whitespace around them and any leading zeros, joined by commas, read as the decimal values of the digit runs, in order |
| Parsing.PaddedLinePushes | src/parser.rs:119-136 | inside a section, a line such as ` 01, 3 ` (whitespace around the commas, leading zeros) appends the values of its digit runs to the section's constraints and changes nothing else |
| Parsing.ConstraintLinePushes | src/parser.rs:119-136 | inside a section, a number list with any whitespace around it appends exactly that list to the section's constraints and changes nothing else |
| Parsing.ConstraintModeFallsBackToHeader | src/parser.rs:137-141 | inside a section, a line not starting with a number ends the section and is read, trimmed, as a header line |
| Parsing.SectionEndsAtNextHeader | src/parser.rs:137-141 | a `columns` or `rows` header closes the open section without a blank line before it |
| Parsing.ParseLine | src/parser.rs:74-81 | each line read advances the line count by one, keeps what the builder already has, and never raises the internal error |
| Parsing.ParseLines | src/parser.rs:74-81 | after a block of lines the count has grown by the block's length, nothing already in the builder is lost, and the internal error never escapes |
| Parsing.ParseLinesAppend | src/parser.rs:74-81 | reading two blocks is reading the first, then the second from where the first ended, stopping at the first error |
| Parsing.Parse | src/parser.rs:67-84 | parsing succeeds exactly when every line reads and the final builder validates; the grid then carries the constraints read; a builder that does not validate gives `Invalid` |
| Parsing.UnquoteAsWritten | src/parser.rs:149-155 | the function as written panics on exactly one input, the lone `"` |
| Parsing.UnquoteLoneQuotePanics | src/parser.rs:149-155 | the lone `"` is that input |
| Parsing.Unquote | src/parser.rs:149-155 | the result is two characters shorter exactly when the text has at least two characters and starts and ends with a quote |
| Parsing.UnquoteQuote | src/parser.rs:149-155 | unquoting a quoted text gives the text back, whatever it holds |
| Parsing.UnquoteUnquoted | src/parser.rs:149-155 | a text that does not both start and end with a quote is left alone |
| Parsing.UnquoteAgreesAsWritten | src/parser.rs:149-155 | on every input except the lone quote, the corrected function agrees with the one written |

## Left out

- Reading the input is not modelled: the `read_to_string` call and the `IOError` case. `Parsing.Parse` takes the input already split into lines.
- `str::lines()` is not modelled either, for the same reason.
- Output is not modelled: `println!`, `as_text`, `Display`. Neither are src/main.rs and src/lib.rs (glue around the core), the `Default` impls and `Nonogram::builder`.
- The `goal` header is skipped by the source, and the model treats it like any other unknown command.
- Solving.SolveLoop: the source `while` loop has no progress guard and need not end. The model takes a fuel parameter and reports `OutOfFuel`. `Correctness.StuckLoopRunsOutOfFuel` proves the loop really does not end in that case.
- Solving.Solve: takes the same fuel parameter as the loop.
- Solving.ConsensusStep: a line with no candidate left is the source's panic on `cands[0]`. The model returns a `Fault` that names the line.
- Reduction.FindConsensus: requires a non-empty set, because the source reads `cands[0]` and panics on an empty one.
- Generation.Candidates: requires the clue's runs to fit the line, because `capacity - occupation` on `usize` underflows otherwise. `Correctness.SolutionFits` shows every solvable puzzle meets this.
- Solving.New: inherits the requirement of Generation.Candidates that every clue fit its line. A puzzle the parser accepts can break it (width 1, height 1, a column clue of 2), and on such a puzzle the source's `usize` subtraction at src/solver.rs:140 underflows; the model says nothing about that run.
- Masks.IntoMask: requires one more gap than runs, because the source asserts that and panics otherwise.
- Grid.Get: requires `x < width` and `y < height`. The source panics only when `y * width + x` is past the cell vector, so its out-of-row `x` that lands on another cell is not modelled.
- Grid.Set: has the same in-grid requirement as `Grid.Get`.
- Grid.New: `width * height` is unbounded here; a `usize` overflow of that product is not modelled.
- Text.ParseUsize: `usize` is taken to be 64 bits wide.
- Text.ParseUsize: the different kinds of `ParseIntError` are not distinguished, since the parser maps them all to one error.
- Text.IsWhitespace: follows the Unicode White_Space property that `char::is_whitespace` uses; strings are sequences of Unicode scalar values.
- Correctness.SolverFindsTheSolution: assumes every clue is positive runs or the lone `0`, which the parser produces for a blank line. A 0 next to other runs (`2,0,1`) parses but is not covered. `candidates` reads it as an empty run that still needs a blank on each side. `Correctness.IsSolution` would ask for a run of length 0, which no line has, so the theorems say nothing about such a puzzle.
- Examples.CandidatesOfOneTwo: the solver's documentation calls the line "5-wide", but the placements it shows have six cells. The model follows the six cells.
- The overwrite in the consensus step is modelled as written: there is no conflict check, and the column pass wins.

## Findings

| source | as written | input that shows it | evidently intended | confidence | as-written member | corrected member |
|---|---|---|---|---|---|---|
| src/parser.rs:149-155 | `unquote` tests `starts_with("\"")` and `ends_with("\"")`, then slices `1..len - 1` | the one-character text `"`: both tests pass and the slice `1..0` panics | a text counts as quoted only when it has two quote characters, so `"` is returned unchanged | not executed | Parsing.UnquoteAsWritten (shown by Parsing.UnquoteLoneQuotePanics) | Parsing.Unquote (proved by Parsing.UnquoteQuote and Parsing.UnquoteUnquoted) |

=== FILE: builder.dfy ===
/** `NonogramBuilder` (src/nonogram.rs): dimensions are set at most once,
    constraints are pushed one line at a time, and `build` checks that the
    counts agree with the dimensions. */
module Builder {
  import opened Results
  import opened Cells
  import opened Grid

  datatype BuilderError = Invalid | WidthAlreadySet | HeightAlreadySet

  datatype NonogramBuilder = NonogramBuilder(
    width: Option<nat>,
    height: Option<nat>,
    rows: seq<Constraint>,
    cols: seq<Constraint>)

  function NewBuilder(): (b: NonogramBuilder)
    ensures b.width.None? && b.height.None? && b.rows == [] && b.cols == []
  {
    NonogramBuilder(None, None, [], [])
  }

  /** `width`: only the first call sets the width; on failure the caller's
      builder is left as it was. */
  function SetWidth(b: NonogramBuilder, width: nat): (r: Result<NonogramBuilder, BuilderError>)
    ensures r.Err? <==> b.width.Some?
    ensures r.Err? ==> r.error == WidthAlreadySet
    ensures r.Ok? ==> r.value.width == Some(width) && r.value == b.(width := r.value.width)
  {
    match b.width
    case Some(_) => Err(WidthAlreadySet)
    case None => Ok(b.(width := Some(width)))
  }

  function SetHeight(b: NonogramBuilder, height: nat): (r: Result<NonogramBuilder, BuilderError>)
    ensures r.Err? <==> b.height.Some?
    ensures r.Err? ==> r.error == HeightAlreadySet
    ensures r.Ok? ==> r.value.height == Some(height) && r.value == b.(height := r.value.height)
  {
    match b.height
    case Some(_) => Err(HeightAlreadySet)
    case None => Ok(b.(height := Some(height)))
  }

  function PushRowConstraint(b: NonogramBuilder, c: Constraint): (r: NonogramBuilder)
    ensures |r.rows| == |b.rows| + 1 && r.rows[..|b.rows|] == b.rows && r.rows[|b.rows|] == c
    ensures r.cols == b.cols && r.width == b.width && r.height == b.height
  {
    b.(rows := b.rows + [c])
  }

  function PushColConstraint(b: NonogramBuilder, c: Constraint): (r: NonogramBuilder)
    ensures |r.cols| == |b.cols| + 1 && r.cols[..|b.cols|] == b.cols && r.cols[|b.cols|] == c
    ensures r.rows == b.rows && r.width == b.width && r.height == b.height
  {
    b.(cols := b.cols + [c])
  }

  /** Both dimensions are known and one constraint was given per line. */
  predicate Complete(b: NonogramBuilder) {
    && b.width.Some? && b.height.Some?
    && b.height.value == |b.rows| && b.width.value == |b.cols|
  }

  function Validate(b: NonogramBuilder): (r: Result<(), BuilderError>)
    ensures r.Ok? <==> Complete(b)
    ensures r.Err? ==> r.error == Invalid
  {
    if b.width.None? || b.height.None? || b.height.value != |b.rows| || b.width.value != |b.cols| then
      Err(Invalid)
    else
      Ok(())
  }

  /** `build`: a grid whose constraint counts match its dimensions, every
      cell undecided, or `Invalid`. */
  function Build(b: NonogramBuilder): (r: Result<Nonogram, BuilderError>)
    ensures r.Ok? <==> Complete(b)
    ensures r.Err? ==> r.error == Invalid
    ensures r.Ok? ==> && r.value.Valid()
                      && r.value.width == |b.cols| && r.value.height == |b.rows|
                      && r.value.rows == b.rows && r.value.cols == b.cols
                      && forall i :: 0 <= i < |r.value.cells| ==> r.value.cells[i] == Undecided
  {
    var _ :- Validate(b);
    Ok(New(b.width.value, b.height.value, b.cols, b.rows))
  }

  /** Dimensions are set once: a second call fails and the first value stays. */
  lemma {:induction false} DimensionsAreSetOnce(b: NonogramBuilder, w1: nat, w2: nat, h1: nat, h2: nat)
    requires b.width.None? && b.height.None?
    ensures SetWidth(SetWidth(b, w1).value, w2) == Err(WidthAlreadySet)
    ensures SetHeight(SetHeight(b, h1).value, h2) == Err(HeightAlreadySet)
    ensures SetHeight(SetWidth(b, w1).value, h1).value.width == Some(w1)
  {
  }
}

=== FILE: cells.dfy ===
/** The three-valued cell state of a nonogram grid and its small algebra
    (`CellState` in src/nonogram.rs). */
module Cells {

  datatype CellState = Undecided | Empty | Filled

  /** `From<bool>`: true is a filled cell, false an empty one. */
  function FromBool(b: bool): (c: CellState)
    ensures c != Undecided
    ensures c == Filled <==> b
  {
    if b then Filled else Empty
  }

  /** `accepts`: can a candidate cell `c` be laid over the grid cell `g`?
      Yes when the grid knows nothing, or knows exactly `c`. This is the
      information order on cells: `Undecided` is below everything and the
      two decided states are incomparable. */
  predicate Accepts(g: CellState, c: CellState) {
    g == Undecided || g == c
  }

  /** `consensus_eq`: the common value of two cells, `Undecided` when they
      disagree. It is the meet of `Accepts`: it accepts both arguments and
      every cell accepting both also accepts it. */
  function ConsensusEq(a: CellState, b: CellState): (c: CellState)
    ensures Accepts(c, a) && Accepts(c, b)
    ensures forall d :: Accepts(d, a) && Accepts(d, b) ==> Accepts(d, c)
  {
    if a == b then a else Undecided
  }

  lemma {:induction false} AcceptsIsPartialOrder()
    ensures forall a :: Accepts(a, a)
    ensures forall a, b :: Accepts(a, b) && Accepts(b, a) ==> a == b
    ensures forall a, b, c :: Accepts(a, b) && Accepts(b, c) ==> Accepts(a, c)
    ensures forall a :: Accepts(Undecided, a)
    ensures forall a :: a != Undecided ==> (Accepts(a, a) && forall b :: Accepts(a, b) ==> b == a)
  {
  }

  lemma {:induction false} ConsensusEqAlgebra(a: CellState, b: CellState, c: CellState)
    ensures ConsensusEq(a, b) == ConsensusEq(b, a)
    ensures ConsensusEq(ConsensusEq(a, b), c) == ConsensusEq(a, ConsensusEq(b, c))
    ensures ConsensusEq(a, a) == a
  {
  }
}

=== FILE: correctness.dfy ===
/** Properties of whole runs of the engine: fuel monotonicity, the
    irrelevance of leftover cells, and partial correctness of `solve`
    against any grid whose lines are all still candidates. */
module Correctness {
  import opened Cells
  import opened Results
  import opened Seqs
  import opened Masks
  import opened Grid
  import opened Generation
  import opened Reduction
  import opened Solving

  /** What `solve` does depends on the puzzle and the candidate sets only,
      never on cells left over from an earlier run. */
  lemma {:induction false} SolveIgnoresPriorCells(s: Solver, t: Solver, fuel: nat)
    requires Inv(s) && Inv(t)
    requires s.rows == t.rows && s.cols == t.cols && SamePuzzle(s.nono, t.nono)
    ensures Solve(s, fuel) == Solve(t, fuel)
  {
    ClearSolutionForgetsCells(s.nono, t.nono);
    assert s.(nono := ClearSolution(s.nono)) == t.(nono := ClearSolution(t.nono));
  }

  lemma {:induction false} SolveLoopStep(s: Solver, fuel: nat)
    requires Inv(s) && Undecided in s.nono.cells && fuel > 0
    ensures Round(s).Err? ==> SolveLoop(s, fuel) == Panicked(Round(s).error)
    ensures Round(s).Ok? ==> SolveLoop(s, fuel) == SolveLoop(Round(s).value, fuel - 1)
  {
  }

  /** More fuel never changes a run that already ended without running out. */
  lemma SolveLoopFuelMonotone(s: Solver, fuel: nat, more: nat)
    requires Inv(s) && fuel <= more
    requires !SolveLoop(s, fuel).OutOfFuel?
    ensures SolveLoop(s, more) == SolveLoop(s, fuel)
    decreases fuel
  {
    if Undecided in s.nono.cells && fuel > 0 && Round(s).Ok? {
      SolveLoopStep(s, fuel);
      SolveLoopFuelMonotone(Round(s).value, fuel - 1, more - 1);
      FuelStep(s, fuel, more);
    } else if Undecided in s.nono.cells && fuel > 0 {
      SolveLoopStep(s, fuel);
      SolveLoopStep(s, more);
    }
  }

  lemma {:induction false} FuelStep(s: Solver, fuel: nat, more: nat)
    requires Inv(s) && fuel <= more && Undecided in s.nono.cells && fuel > 0 && Round(s).Ok?
    requires SolveLoop(Round(s).value, more - 1) == SolveLoop(Round(s).value, fuel - 1)
    ensures SolveLoop(s, more) == SolveLoop(s, fuel)
  {
    SolveLoopStep(s, fuel);
    SolveLoopStep(s, more);
  }

  /** The grid `n` has not ruled out the grid `sol`: every cell of `n` is
      Undecided or equal to `sol`'s. */
  predicate Compatible(n: Nonogram, sol: Nonogram) {
    && n.Valid() && sol.Valid() && n.width == sol.width && n.height == sol.height
    && forall x: nat, y: nat :: x < n.width && y < n.height ==> Accepts(Get(n, x, y), Get(sol, x, y))
  }

  /** Every row and every column of `sol` is still among the solver's
      candidates for that line. */
  predicate Admits(s: Solver, sol: Nonogram)
    requires Inv(s)
  {
    && sol.Valid() && sol.width == s.nono.width && sol.height == s.nono.height
    && (forall y :: 0 <= y < sol.height ==> Row(sol, y).value in s.rows[y])
    && (forall x :: 0 <= x < sol.width ==> Column(sol, x).value in s.cols[x])
  }

  /** A consensus step never contradicts a grid whose lines are all still
      candidates: such a grid keeps every set non-empty, and every cell the
      step writes is that grid's cell. */
  lemma {:induction false} ConsensusStepSound(s: Solver, sol: Nonogram)
    requires Inv(s) && Admits(s, sol) && Compatible(s.nono, sol)
    ensures ConsensusStep(s).Ok?
    ensures Compatible(ConsensusStep(s).value.nono, sol)
  {
    forall y | 0 <= y < |s.rows|
      ensures |s.rows[y]| > 0
    {
      assert Row(sol, y).value in s.rows[y];
    }
    forall x | 0 <= x < |s.cols|
      ensures |s.cols[x]| > 0
    {
      assert Column(sol, x).value in s.cols[x];
    }
    var t := ConsensusStep(s).value;
    forall x: nat, y: nat | x < s.nono.width && y < s.nono.height
      ensures Accepts(Get(t.nono, x, y), Get(sol, x, y))
    {
      var row, col := Row(sol, y).value, Column(sol, x).value;
      ConsensusAcceptsMembers(s.rows[y]);
      ConsensusAcceptsMembers(s.cols[x]);
      assert CanPlace(RowConsensus(s, y), row);
      assert CanPlace(ColumnConsensus(s, x), col);
      assert Accepts(RowConsensus(s, y)[x], row[x]);
      assert Accepts(ColumnConsensus(s, x)[y], col[y]);
    }
  }

  /** A filter step never drops a line of a grid the current grid is
      compatible with. */
  lemma {:induction false} FilterStepSound(s: Solver, sol: Nonogram)
    requires Inv(s) && Admits(s, sol) && Compatible(s.nono, sol)
    ensures Admits(FilterStep(s), sol)
  {
    var t := FilterStep(s);
    forall y | 0 <= y < sol.height
      ensures Row(sol, y).value in t.rows[y]
    {
      var line, row := Row(s.nono, y).value, Row(sol, y).value;
      forall x | 0 <= x < Min(|line|, |row|)
        ensures Accepts(line[x], row[x])
      {
        assert Accepts(Get(s.nono, x, y), Get(sol, x, y));
      }
    }
    forall x | 0 <= x < sol.width
      ensures Column(sol, x).value in t.cols[x]
    {
      var line, col := Column(s.nono, x).value, Column(sol, x).value;
      forall y | 0 <= y < Min(|line|, |col|)
        ensures Accepts(line[y], col[y])
      {
        assert Accepts(Get(s.nono, x, y), Get(sol, x, y));
      }
    }
  }

  /** A whole round keeps a compatible, admitted grid compatible and
      admitted. */
  lemma {:induction false} RoundSound(s: Solver, sol: Nonogram)
    requires Inv(s) && Admits(s, sol) && Compatible(s.nono, sol)
    ensures Round(s).Ok?
    ensures Admits(Round(s).value, sol) && Compatible(Round(s).value.nono, sol)
  {
    ConsensusStepSound(s, sol);
    var t := ConsensusStep(s).value;
    assert Admits(t, sol);
    FilterStepSound(t, sol);
  }

  /** A grid that accepts `sol` and has no Undecided cell is `sol`. */
  lemma {:induction false} DecidedCompatibleIsEqual(n: Nonogram, sol: Nonogram)
    requires Compatible(n, sol) && Undecided !in n.cells
    ensures n.cells == sol.cells
  {
    forall x: nat, y: nat | x < n.width && y < n.height
      ensures Get(n, x, y) == Get(sol, x, y)
    {
      IndexInGrid(n, x, y);
      assert n.cells[XyToIndex(n, x, y)] in n.cells;
    }
    CellsDetermineGrid(n, sol);
  }

  /** Partial correctness of the loop: as long as some grid `sol` fits the
      current grid and has its every line among the candidates, the loop
      never panics, and if it finishes it has found `sol`. */
  lemma SolveLoopSound(s: Solver, sol: Nonogram, fuel: nat)
    requires Inv(s) && Admits(s, sol) && Compatible(s.nono, sol)
    ensures !SolveLoop(s, fuel).Panicked?
    ensures SolveLoop(s, fuel).Finished? ==> SolveLoop(s, fuel).solver.nono.cells == sol.cells
    decreases fuel
  {
    if Undecided !in s.nono.cells {
      DecidedCompatibleIsEqual(s.nono, sol);
    } else if fuel > 0 {
      RoundSound(s, sol);
      SolveLoopSound(Round(s).value, sol, fuel - 1);
    }
  }

  /** Partial correctness of `solve`: if every line of `sol` is among the
      candidates, `solve` does not panic, and when it finishes the grid is
      `sol`. */
  lemma {:induction false} SolveSound(s: Solver, sol: Nonogram, fuel: nat)
    requires Inv(s) && Admits(s, sol)
    ensures !Solve(s, fuel).Panicked?
    ensures Solve(s, fuel).Finished? ==> Solve(s, fuel).solver.nono.cells == sol.cells
  {
    var cleared := s.(nono := ClearSolution(s.nono));
    forall x: nat, y: nat | x < s.nono.width && y < s.nono.height
      ensures Get(cleared.nono, x, y) == Undecided
    {
      IndexInGrid(cleared.nono, x, y);
    }
    SolveLoopSound(cleared, sol, fuel);
  }

  /** `sol` is a solution of the puzzle `p`: a fully decided grid of the
      same size whose rows and columns spell out the clues, a lone `0`
      standing for a blank line. */
  predicate IsSolution(p: Nonogram, sol: Nonogram) {
    && p.Valid() && |p.rows| == p.height && |p.cols| == p.width
    && sol.Valid() && sol.width == p.width && sol.height == p.height
    && Undecided !in sol.cells
    && (forall y :: 0 <= y < sol.height ==> Runs(Row(sol, y).value) == ClueRuns(p.rows[y]))
    && (forall x :: 0 <= x < sol.width ==> Runs(Column(sol, x).value) == ClueRuns(p.cols[x]))
  }

  /** Every clue is positive runs or the lone `0` of a blank line; a 0
      among other runs is not read as a clue by `candidates`. */
  predicate WellFormedClues(p: Nonogram) {
    && (forall y :: 0 <= y < |p.rows| ==> WellFormedClue(p.rows[y]))
    && (forall x :: 0 <= x < |p.cols| ==> WellFormedClue(p.cols[x]))
  }

  lemma {:induction false} SolutionLinesDetermined(sol: Nonogram)
    requires sol.Valid() && Undecided !in sol.cells
    ensures forall y :: 0 <= y < sol.height ==> Determined(Row(sol, y).value)
    ensures forall x :: 0 <= x < sol.width ==> Determined(Column(sol, x).value)
  {
    forall x: nat, y: nat | x < sol.width && y < sol.height
      ensures Get(sol, x, y) != Undecided
    {
      IndexInGrid(sol, x, y);
      assert sol.cells[XyToIndex(sol, x, y)] in sol.cells;
    }
  }

  /** A solvable puzzle has clues that fit their lines, so a solver can be
      built for it without the unsigned subtraction in `candidates`
      underflowing. */
  lemma {:induction false} SolutionFits(p: Nonogram, sol: Nonogram)
    requires IsSolution(p, sol)
    ensures Fits(p.rows, p.width) && Fits(p.cols, p.height)
  {
    SolutionLinesDetermined(sol);
    forall y | 0 <= y < |p.rows|
      ensures Sum(p.rows[y]) <= p.width
    {
      IntoMaskOfDecode(Row(sol, y).value);
    }
    forall x | 0 <= x < |p.cols|
      ensures Sum(p.cols[x]) <= p.height
    {
      IntoMaskOfDecode(Column(sol, x).value);
    }
  }

  /** End to end: on a puzzle with well-formed clues that has a solution, a
      fresh solver never panics, and whenever `solve` finishes the grid it
      leaves is that solution. */
  lemma {:induction false} SolverFindsTheSolution(p: Nonogram, sol: Nonogram, fuel: nat)
    requires IsSolution(p, sol) && WellFormedClues(p)
    ensures Fits(p.rows, p.width) && Fits(p.cols, p.height)
    ensures !Solve(Solving.New(p), fuel).Panicked?
    ensures Solve(Solving.New(p), fuel).Finished? ==> Solve(Solving.New(p), fuel).solver.nono.cells == sol.cells
  {
    SolutionFits(p, sol);
    NewSatisfiesInv(p);
    NewHoldsEveryPlacement(p);
    SolutionLinesDetermined(sol);
    var s := Solving.New(p);
    forall y | 0 <= y < sol.height
      ensures Row(sol, y).value in s.rows[y]
    {
    }
    forall x | 0 <= x < sol.width
      ensures Column(sol, x).value in s.cols[x]
    {
    }
    SolveSound(s, sol, fuel);
  }

  /** When `solve` finishes on a puzzle with well-formed clues, the puzzle has
      at most one solution. */
  lemma {:induction false} FinishedMeansUniqueSolution(p: Nonogram, sol1: Nonogram, sol2: Nonogram, fuel: nat)
    requires IsSolution(p, sol1) && IsSolution(p, sol2) && WellFormedClues(p)
    requires Fits(p.rows, p.width) && Fits(p.cols, p.height)
    requires Solve(Solving.New(p), fuel).Finished?
    ensures sol1.cells == sol2.cells
  {
    SolverFindsTheSolution(p, sol1, fuel);
    SolverFindsTheSolution(p, sol2, fuel);
  }

  /** A consensus step paints nothing when no consensus decides a cell. */
  lemma {:induction false} ConsensusStepPaintsNothing(s: Solver)
    requires Inv(s) && NoEmptySet(s)
    requires forall y, x :: 0 <= y < |s.rows| && 0 <= x < s.nono.width ==> RowConsensus(s, y)[x] == Undecided
    requires forall x, y :: 0 <= x < |s.cols| && 0 <= y < s.nono.height ==> ColumnConsensus(s, x)[y] == Undecided
    ensures ConsensusStep(s) == Ok(s)
  {
    var t := ConsensusStep(s).value;
    CellsDetermineGrid(t.nono, s.nono);
    assert t == s;
  }

  /** On a grid without decided cells every candidate survives the filter. */
  lemma {:induction false} FilterStepOfBlankGridKeepsAll(s: Solver)
    requires Inv(s)
    requires forall i :: 0 <= i < |s.nono.cells| ==> s.nono.cells[i] == Undecided
    ensures FilterStep(s) == s
  {
    forall y | 0 <= y < |s.rows|
      ensures Retain(s.rows[y], Row(s.nono, y).value) == s.rows[y]
    {
      var line := Row(s.nono, y).value;
      forall x: nat | x < |line|
        ensures line[x] == Undecided
      {
        IndexInGrid(s.nono, x, y);
      }
      RetainKeepsAll(s.rows[y], line);
    }
    forall x | 0 <= x < |s.cols|
      ensures Retain(s.cols[x], Column(s.nono, x).value) == s.cols[x]
    {
      var line := Column(s.nono, x).value;
      forall y: nat | y < |line|
        ensures line[y] == Undecided
      {
        IndexInGrid(s.nono, x, y);
      }
      RetainKeepsAll(s.cols[x], line);
    }
  }

  /** When the grid holds no decided cell and no line's consensus decides
      one, a round changes nothing. */
  lemma {:induction false} RoundFixedWhenNothingIsForced(s: Solver)
    requires Inv(s) && NoEmptySet(s)
    requires forall i :: 0 <= i < |s.nono.cells| ==> s.nono.cells[i] == Undecided
    requires forall y, x :: 0 <= y < |s.rows| && 0 <= x < s.nono.width ==> RowConsensus(s, y)[x] == Undecided
    requires forall x, y :: 0 <= x < |s.cols| && 0 <= y < s.nono.height ==> ColumnConsensus(s, x)[y] == Undecided
    ensures Round(s) == Ok(s)
  {
    ConsensusStepPaintsNothing(s);
    FilterStepOfBlankGridKeepsAll(s);
  }

  /** Cells are left to decide, yet a round changes nothing. */
  predicate Stuck(s: Solver) {
    Inv(s) && Undecided in s.nono.cells && Round(s) == Ok(s)
  }

  /** A round that changes nothing repeats forever: with Undecided cells
      left, the loop uses up any fuel it is given. This is how `solve`
      fails to return on puzzles line reasoning cannot finish. */
  lemma {:induction false} StuckLoopRunsOutOfFuel(s: Solver, fuel: nat)
    requires Stuck(s)
    ensures SolveLoop(s, fuel) == OutOfFuel(s)
    decreases fuel
  {
    if fuel > 0 {
      var k: nat := fuel - 1;
      StuckLoopRunsOutOfFuel(s, k);
      StuckRoundRepeats(s, k);
    }
  }

  /** One more round of a stuck loop leaves it where it was. */
  lemma {:induction false} StuckRoundRepeats(s: Solver, k: nat)
    requires Stuck(s)
    requires SolveLoop(s, k) == OutOfFuel(s)
    ensures SolveLoop(s, k + 1) == OutOfFuel(s)
  {
    SolveLoopStep(s, k + 1);
  }
}

=== FILE: examples.dfy ===
/** Worked instances of the model: the placement list shown in the solver's
    own documentation (src/solver.rs), and small puzzles run through the
    solver. */
module Examples {
  import opened Cells
  import opened Seqs
  import opened Masks
  import opened Generation
  import opened Reduction
  import opened Grid
  import opened Solving
  import opened Correctness

  /** The last slot of three takes whatever blanks are left. */
  lemma {:induction false} LastSlotTakesTheRest(blanks: nat, base: seq<nat>, i: nat)
    requires i <= blanks
    ensures Spread(blanks, 3, 3, base, i) == [base + [blanks]]
    decreases blanks - i
  {
    if i < blanks {
      LastSlotTakesTheRest(blanks, base, i + 1);
    }
  }

  lemma {:induction false} LastSlot(blanks: nat, base: seq<nat>)
    ensures MakeCandidates(blanks, 3, 3, base) == [base + [blanks]]
  {
    LastSlotTakesTheRest(blanks, base, 0);
  }

  /** The middle slot of three takes at least one blank, the rest goes last. */
  lemma {:induction false} MiddleSlot(blanks: nat, first: nat)
    requires 1 <= blanks <= 3
    ensures MakeCandidates(blanks, 2, 3, [first]) ==
      if blanks == 1 then [[first, 1, 0]]
      else if blanks == 2 then [[first, 1, 1], [first, 2, 0]]
      else [[first, 1, 2], [first, 2, 1], [first, 3, 0]]
  {
    var base := [first];
    forall i: nat | 1 <= i <= blanks
      ensures MakeCandidates(blanks - i, 3, 3, base + [i]) == [[first, i, blanks - i]]
    {
      LastSlot(blanks - i, base + [i]);
      assert base + [i] + [blanks - i] == [first, i, blanks - i];
    }
    assert Spread(blanks, 2, 3, base, blanks + 1) == [];
    assert Spread(blanks, 2, 3, base, blanks) == [[first, blanks, 0]];
    if blanks >= 2 {
      assert Spread(blanks, 2, 3, base, blanks - 1) == [[first, blanks - 1, 1], [first, blanks, 0]];
    }
    if blanks == 3 {
      assert Spread(blanks, 2, 3, base, 1) == [[first, 1, 2], [first, 2, 1], [first, 3, 0]];
    }
  }

  /** The gap vectors for two runs and three blanks, in generation order. */
  lemma {:induction false} GapVectorsOfTwoRuns(k: nat, blanks: nat)
    requires k == 2 && blanks == 3
    ensures GapVectors(k, blanks) == [[0, 1, 2], [0, 2, 1], [0, 3, 0], [1, 1, 1], [1, 2, 0], [2, 1, 0]]
  {
    var total := k + 1;
    forall i: nat
      ensures [] + [i] == [i]
    {
    }
    MiddleSlot(blanks, 0);
    MiddleSlot(blanks - 1, 1);
    MiddleSlot(blanks - 2, 2);
    assert MakeCandidates(blanks - 3, 2, total, [3]) == [] by {
      assert Spread(blanks - 3, 2, total, [3], 1) == [];
    }
    var last := Spread(blanks, 1, total, [], 3);
    assert last == [] by {
      assert Spread(blanks, 1, total, [], 4) == [];
    }
    var third := Spread(blanks, 1, total, [], 2);
    assert third == [[2, 1, 0]];
    var second := Spread(blanks, 1, total, [], 1);
    assert second == [[1, 1, 1], [1, 2, 0]] + third;
    var first := Spread(blanks, 1, total, [], 0);
    assert first == [[0, 1, 2], [0, 2, 1], [0, 3, 0]] + second;
  }

  lemma {:induction false} MaskOfOneTwo(a: nat, b: nat, c: nat)
    ensures IntoMask([a, b, c], [1, 2]) ==
      Repeat(Empty, a) + [Filled] + Repeat(Empty, b) + [Filled, Filled] + Repeat(Empty, c)
  {
    assert IntoMask([c], []) == Repeat(Empty, c);
    assert [b, c][1..] == [c] && [2][1..] == [];
    assert Repeat(Filled, 2) == [Filled, Filled];
    var tail := IntoMask([b, c], [2]);
    assert tail == Repeat(Empty, b) + [Filled, Filled] + Repeat(Empty, c);
    assert [a, b, c][1..] == [b, c] && [1, 2][1..] == [2];
    assert Repeat(Filled, 1) == [Filled];
    assert IntoMask([a, b, c], [1, 2]) == Repeat(Empty, a) + [Filled] + tail;
  }

  lemma {:induction false} Mask012()
    ensures IntoMask([0, 1, 2], [1, 2]) == [Filled, Empty, Filled, Filled, Empty, Empty]
  {
    MaskOfOneTwo(0, 1, 2);
    assert Repeat(Empty, 0) == [] && Repeat(Empty, 1) == [Empty];
    assert Repeat(Empty, 2) == [Empty, Empty] && Repeat(Empty, 3) == [Empty, Empty, Empty];
  }

  lemma {:induction false} Mask021()
    ensures IntoMask([0, 2, 1], [1, 2]) == [Filled, Empty, Empty, Filled, Filled, Empty]
  {
    MaskOfOneTwo(0, 2, 1);
    assert Repeat(Empty, 0) == [] && Repeat(Empty, 1) == [Empty];
    assert Repeat(Empty, 2) == [Empty, Empty] && Repeat(Empty, 3) == [Empty, Empty, Empty];
  }

  lemma {:induction false} Mask030()
    ensures IntoMask([0, 3, 0], [1, 2]) == [Filled, Empty, Empty, Empty, Filled, Filled]
  {
    MaskOfOneTwo(0, 3, 0);
    assert Repeat(Empty, 0) == [] && Repeat(Empty, 1) == [Empty];
    assert Repeat(Empty, 2) == [Empty, Empty] && Repeat(Empty, 3) == [Empty, Empty, Empty];
  }

  lemma {:induction false} Mask111()
    ensures IntoMask([1, 1, 1], [1, 2]) == [Empty, Filled, Empty, Filled, Filled, Empty]
  {
    MaskOfOneTwo(1, 1, 1);
    assert Repeat(Empty, 0) == [] && Repeat(Empty, 1) == [Empty];
    assert Repeat(Empty, 2) == [Empty, Empty] && Repeat(Empty, 3) == [Empty, Empty, Empty];
  }

  lemma {:induction false} Mask120()
    ensures IntoMask([1, 2, 0], [1, 2]) == [Empty, Filled, Empty, Empty, Filled, Filled]
  {
    MaskOfOneTwo(1, 2, 0);
    assert Repeat(Empty, 0) == [] && Repeat(Empty, 1) == [Empty];
    assert Repeat(Empty, 2) == [Empty, Empty] && Repeat(Empty, 3) == [Empty, Empty, Empty];
  }

  lemma {:induction false} Mask210()
    ensures IntoMask([2, 1, 0], [1, 2]) == [Empty, Empty, Filled, Empty, Filled, Filled]
  {
    MaskOfOneTwo(2, 1, 0);
    assert Repeat(Empty, 0) == [] && Repeat(Empty, 1) == [Empty];
    assert Repeat(Empty, 2) == [Empty, Empty] && Repeat(Empty, 3) == [Empty, Empty, Empty];
  }

  lemma {:induction false} MasksOfOneTwo()
    ensures IntoMasks([[0, 1, 2], [0, 2, 1], [0, 3, 0], [1, 1, 1], [1, 2, 0], [2, 1, 0]], [1, 2]) == [
      [Filled, Empty, Filled, Filled, Empty, Empty],
      [Filled, Empty, Empty, Filled, Filled, Empty],
      [Filled, Empty, Empty, Empty, Filled, Filled],
      [Empty, Filled, Empty, Filled, Filled, Empty],
      [Empty, Filled, Empty, Empty, Filled, Filled],
      [Empty, Empty, Filled, Empty, Filled, Filled]]
  {
    Mask012();
    Mask021();
    Mask030();
    Mask111();
    Mask120();
    Mask210();
  }

  /** Runs 1 and 2 on six cells: six placements, in the order the solver's
      documentation lists them. */
  lemma {:induction false} CandidatesOfOneTwo()
    ensures Candidates([1, 2], 6) == [
      [Filled, Empty, Filled, Filled, Empty, Empty],
      [Filled, Empty, Empty, Filled, Filled, Empty],
      [Filled, Empty, Empty, Empty, Filled, Filled],
      [Empty, Filled, Empty, Filled, Filled, Empty],
      [Empty, Filled, Empty, Empty, Filled, Filled],
      [Empty, Empty, Filled, Empty, Filled, Filled]]
  {
    assert Sum([1, 2]) == 3;
    GapVectorsOfTwoRuns(2, 3);
    MasksOfOneTwo();
  }

  lemma {:induction false} GapVectorsOfOneRun()
    ensures GapVectors(1, 1) == [[0, 1], [1, 0]]
  {
    assert MakeCandidates(1, 2, 2, [0]) == [[0, 1]] by {
      assert [0] + [1] == [0, 1];
      assert Spread(1, 2, 2, [0], 2) == [];
      assert Spread(1, 2, 2, [0], 1) == [[0, 1]];
    }
    assert MakeCandidates(0, 2, 2, [1]) == [[1, 0]] by {
      assert [1] + [0] == [1, 0];
      assert Spread(0, 2, 2, [1], 1) == [];
    }
    assert [] + [0] == [0] && [] + [1] == [1];
    assert Spread(1, 1, 2, [], 2) == [];
  }

  lemma {:induction false} MasksOfOneRun(gaps: seq<seq<nat>>)
    requires gaps == [[0, 1], [1, 0]]
    ensures IntoMasks(gaps, [1]) == [[Filled, Empty], [Empty, Filled]]
  {
    assert Repeat(Filled, 1) == [Filled] && Repeat(Empty, 1) == [Empty] && Repeat(Empty, 0) == [];
    assert IntoMask([0, 1], [1]) == [Filled, Empty] by {
      assert [0, 1][1..] == [1];
    }
    assert IntoMask([1, 0], [1]) == [Empty, Filled] by {
      assert [1, 0][1..] == [0];
    }
  }

  /** One run on two cells: the run at the left, then at the right. */
  lemma {:induction false} CandidatesOfOneOnTwo(constraint: seq<nat>, capacity: nat)
    requires constraint == [1] && capacity == 2
    ensures Sum(constraint) <= capacity
    ensures Candidates(constraint, capacity) == [[Filled, Empty], [Empty, Filled]]
  {
    assert Sum([1]) == 1;
    GapVectorsOfOneRun();
    MasksOfOneRun(GapVectors(1, 1));
  }

  /** A single gap of width 0 on two blanks: three ways to share the two
      blanks between the two ends. */
  lemma {:induction false} GapVectorsOfZeroRun(k: nat, blanks: nat)
    requires k == 1 && blanks == 2
    ensures GapVectors(k, blanks) == [[0, 2], [1, 1], [2, 0]]
  {
    assert [] + [0] == [0] && [] + [1] == [1] && [] + [2] == [2];
    assert [0] + [2] == [0, 2] && [1] + [1] == [1, 1] && [2] + [0] == [2, 0];
    assert MakeCandidates(blanks, 2, 2, [0]) == [[0, 2]] by {
      assert Spread(blanks, 2, 2, [0], 3) == [];
      assert Spread(blanks, 2, 2, [0], 2) == [[0, 2]];
      assert Spread(blanks, 2, 2, [0], 1) == [[0, 2]];
    }
    assert MakeCandidates(blanks - 1, 2, 2, [1]) == [[1, 1]] by {
      assert Spread(blanks - 1, 2, 2, [1], 2) == [];
      assert Spread(blanks - 1, 2, 2, [1], 1) == [[1, 1]];
    }
    assert MakeCandidates(blanks - 2, 2, 2, [2]) == [[2, 0]] by {
      assert Spread(blanks - 2, 2, 2, [2], 1) == [];
    }
    assert Spread(blanks, 1, 2, [], 3) == [];
    assert Spread(blanks, 1, 2, [], 2) == [[2, 0]];
    assert Spread(blanks, 1, 2, [], 1) == [[1, 1], [2, 0]];
  }

  lemma {:induction false} MasksOfZeroRun(gaps: seq<seq<nat>>)
    requires gaps == [[0, 2], [1, 1], [2, 0]]
    ensures IntoMasks(gaps, [0]) == [[Empty, Empty], [Empty, Empty], [Empty, Empty]]
  {
    assert Repeat(Filled, 0) == [] && Repeat(Empty, 0) == [];
    assert Repeat(Empty, 1) == [Empty] && Repeat(Empty, 2) == [Empty, Empty];
    assert IntoMask([0, 2], [0]) == [Empty, Empty] by {
      assert [0, 2][1..] == [2];
    }
    assert IntoMask([1, 1], [0]) == [Empty, Empty] by {
      assert [1, 1][1..] == [1];
    }
    assert IntoMask([2, 0], [0]) == [Empty, Empty] by {
      assert [2, 0][1..] == [0];
    }
    var e: Mask := [Empty, Empty];
    assert gaps[1..] == [[1, 1], [2, 0]] && gaps[1..][1..] == [[2, 0]] && gaps[1..][1..][1..] == [];
    assert IntoMasks(gaps[1..][1..], [0]) == [e];
    assert IntoMasks(gaps[1..], [0]) == [e, e];
  }

  /** The blank-line clue `0` on two cells yields the all-Empty line three
      times, once per gap vector: the list is not free of duplicates. */
  lemma {:induction false} CandidatesOfZeroOnTwo(constraint: seq<nat>, capacity: nat)
    requires constraint == [0] && capacity == 2
    ensures Sum(constraint) <= capacity
    ensures Candidates(constraint, capacity) == [[Empty, Empty], [Empty, Empty], [Empty, Empty]]
  {
    assert Sum([0]) == 0;
    GapVectorsOfZeroRun(1, 2);
    MasksOfZeroRun(GapVectors(1, 2));
  }

  /** The two placements of a single cell on two cells agree nowhere. */
  lemma {:induction false} NoConsensusOnTwo(cands: MaskSet)
    requires cands == [[Filled, Empty], [Empty, Filled]]
    ensures FindConsensus(cands) == [Undecided, Undecided]
  {
    var r := FindConsensus(cands);
    assert r[0] == Undecided && r[1] == Undecided;
  }

  /** The two-by-two puzzle with a single filled cell in every row and
      every column: both diagonals solve it. */
  function Diagonals(): (p: Nonogram)
    ensures p.Valid() && Fits(p.rows, p.width) && Fits(p.cols, p.height)
  {
    var p := Grid.New(2, 2, [[1], [1]], [[1], [1]]);
    assert Sum([1]) == 1;
    p
  }

  /** A solver for a two-by-two puzzle with one filled cell per line starts
      with both placements on every row... */
  lemma {:induction false} DiagonalsRows(p: Nonogram)
    requires Fits(p.rows, p.width) && Fits(p.cols, p.height)
    requires p.width == 2 && p.rows == [[1], [1]]
    ensures Solving.New(p).rows == [[[Filled, Empty], [Empty, Filled]], [[Filled, Empty], [Empty, Filled]]]
  {
    CandidatesOfOneOnTwo(p.rows[0], p.width);
  }

  /** ...and on every column. */
  lemma {:induction false} DiagonalsColumns(p: Nonogram)
    requires Fits(p.rows, p.width) && Fits(p.cols, p.height)
    requires p.height == 2 && p.cols == [[1], [1]]
    ensures Solving.New(p).cols == [[[Filled, Empty], [Empty, Filled]], [[Filled, Empty], [Empty, Filled]]]
  {
    CandidatesOfOneOnTwo(p.cols[0], p.height);
  }

  lemma {:induction false} DiagonalsLines()
    ensures var p := Diagonals(); p.rows == [[1], [1]] && p.cols == [[1], [1]] && p.width == 2 && p.height == 2
  {
  }

  /** Every line of that solver has an all-Undecided consensus. */
  lemma {:induction false} DiagonalsConsensus(s: Solver)
    requires Inv(s) && s.nono.width == 2 && s.nono.height == 2
    requires s.rows == [[[Filled, Empty], [Empty, Filled]], [[Filled, Empty], [Empty, Filled]]]
    requires s.cols == [[[Filled, Empty], [Empty, Filled]], [[Filled, Empty], [Empty, Filled]]]
    ensures NoEmptySet(s)
    ensures forall y, x :: 0 <= y < |s.rows| && 0 <= x < s.nono.width ==> RowConsensus(s, y)[x] == Undecided
    ensures forall x, y :: 0 <= x < |s.cols| && 0 <= y < s.nono.height ==> ColumnConsensus(s, x)[y] == Undecided
  {
    forall y | 0 <= y < |s.rows|
      ensures RowConsensus(s, y) == [Undecided, Undecided]
    {
      NoConsensusOnTwo(s.rows[y]);
    }
    forall x | 0 <= x < |s.cols|
      ensures ColumnConsensus(s, x) == [Undecided, Undecided]
    {
      NoConsensusOnTwo(s.cols[x]);
    }
  }

  /** `solve` never returns on that puzzle: line reasoning decides no cell,
      so every amount of fuel runs out with the grid still blank. */
  lemma {:induction false} DiagonalsNeverFinish(fuel: nat)
    ensures Solve(Solving.New(Diagonals()), fuel).OutOfFuel?
    ensures Solve(Solving.New(Diagonals()), fuel).solver.nono.cells == Diagonals().cells
  {
    var p := Diagonals();
    var s := Solving.New(p);
    DiagonalsLines();
    NewSatisfiesInv(p);
    DiagonalsRows(p);
    DiagonalsColumns(p);
    DiagonalsConsensus(s);
    assert p.cells[0] == Undecided;
    assert s.(nono := ClearSolution(p)) == s;
    RoundFixedWhenNothingIsForced(s);
    StuckLoopRunsOutOfFuel(s, fuel);
  }

  /** One run filling a one-cell line. */
  lemma {:induction false} CandidatesOfOneOnOne(constraint: seq<nat>, capacity: nat)
    requires constraint == [1] && capacity == 1
    ensures Sum(constraint) <= capacity
    ensures Candidates(constraint, capacity) == [[Filled]]
  {
    assert Sum([1]) == 1;
    assert GapVectors(1, 0) == [[0, 0]] by {
      assert [] + [0] == [0] && [0] + [0] == [0, 0];
      assert MakeCandidates(0, 2, 2, [0]) == [[0, 0]];
    }
    assert IntoMask([0, 0], [1]) == [Filled] by {
      assert Repeat(Filled, 1) == [Filled] && Repeat(Empty, 0) == [];
      assert [0, 0][1..] == [0];
    }
  }

  /** A solver for the one-cell puzzle with clue 1 both ways starts with
      the single filled placement on its row and its column. */
  lemma {:induction false} SingleCellSolver(p: Nonogram)
    requires Fits(p.rows, p.width) && Fits(p.cols, p.height)
    requires p.width == 1 && p.height == 1 && p.rows == [[1]] && p.cols == [[1]]
    ensures Solving.New(p).rows == [[[Filled]]] && Solving.New(p).cols == [[[Filled]]]
  {
    CandidatesOfOneOnOne(p.rows[0], p.width);
  }

  /** Both lines of the one-cell solver agree that the cell is filled. */
  lemma {:induction false} SingleCellRound(s: Solver)
    requires Inv(s) && s.nono.width == 1 && s.nono.height == 1
    requires s.rows == [[[Filled]]] && s.cols == [[[Filled]]]
    ensures Round(s).Ok? && Round(s).value.nono.cells == [Filled]
  {
    assert RowConsensus(s, 0) == [Filled];
    assert ColumnConsensus(s, 0) == [Filled];
    var t := ConsensusStep(s).value;
    assert Get(t.nono, 0, 0) == Filled;
    assert XyToIndex(t.nono, 0, 0) == 0;
    assert t.nono.cells == [Filled];
  }

  /** One round decides the one-cell puzzle with clue 1 both ways: with
      any fuel at all `solve` finishes with the cell filled. */
  lemma {:induction false} SingleCellSolvedInOneRound(p: Nonogram, fuel: nat)
    requires p.Valid() && Fits(p.rows, p.width) && Fits(p.cols, p.height)
    requires p.width == 1 && p.height == 1 && p.rows == [[1]] && p.cols == [[1]]
    requires fuel >= 1
    ensures var r := Solve(Solving.New(p), fuel);
      r.Finished? && r.solver.nono.cells == [Filled]
  {
    var s := Solving.New(p);
    NewSatisfiesInv(p);
    SingleCellSolver(p);
    var cleared := s.(nono := ClearSolution(p));
    SingleCellRound(cleared);
    SolveLoopStep(cleared, fuel);
  }
}

=== FILE: generation.dfy ===
/** Candidate generation (`candidates`, `make_candidates` in
    src/solver.rs): every placement of a line's runs, found by distributing
    the blank cells over the gap slots around the runs (stars and bars). */
module Generation {
  import opened Cells
  import opened Seqs
  import opened Masks

  /** The fewest blanks gap slot `nth` (counted from 1) of `total` may hold:
      the outer two slots may be empty, every separator holds at least one. */
  function MinGap(nth: nat, total: nat): nat {
    if nth == 1 || nth == total then 0 else 1
  }

  /** `g` fills gap slots `nth..total` legally with exactly `blanks` cells. */
  predicate GapTail(g: seq<nat>, blanks: nat, nth: nat, total: nat) {
    && |g| == total + 1 - nth
    && Sum(g) == blanks
    && forall j :: 0 <= j < |g| ==> g[j] >= MinGap(nth + j, total)
  }

  /** A legal gap vector for `k` runs and `blanks` blank cells. */
  predicate IsGapVector(g: seq<nat>, k: nat, blanks: nat) {
    |g| == k + 1 && Sum(g) == blanks && InteriorGapsPositive(g)
  }

  /** `make_candidates(blanks, nth, total, base, results)`: the vectors it
      pushes onto `results`, in push order. Each extends `base` with one
      size for every remaining slot `nth..total`. */
  function MakeCandidates(blanks: nat, nth: nat, total: nat, base: seq<nat>): (res: seq<seq<nat>>)
    requires 1 <= nth <= total + 1
    decreases total + 1 - nth, blanks + 2
  {
    if nth > total then
      if blanks == 0 then [base] else []
    else
      Spread(blanks, nth, total, base, MinGap(nth, total))
  }

  /** The `for i in min..blanks + 1` loop of `make_candidates`, from `i` on. */
  function Spread(blanks: nat, nth: nat, total: nat, base: seq<nat>, i: nat): (res: seq<seq<nat>>)
    requires 1 <= nth <= total && i <= blanks + 1
    decreases total + 1 - nth, blanks + 1 - i
  {
    if i > blanks then []
    else MakeCandidates(blanks - i, nth + 1, total, base + [i]) + Spread(blanks, nth, total, base, i + 1)
  }

  lemma {:induction false} GapTailCons(i: nat, g: seq<nat>, blanks: nat, nth: nat, total: nat)
    requires 1 <= nth <= total
    ensures GapTail([i] + g, blanks, nth, total) <==>
      i >= MinGap(nth, total) && i <= blanks && GapTail(g, blanks - i, nth + 1, total)
  {
    var t := [i] + g;
    assert t[1..] == g;
    if GapTail(t, blanks, nth, total) {
      forall j | 0 <= j < |g|
        ensures g[j] >= MinGap(nth + 1 + j, total)
      {
        assert g[j] == t[j + 1];
      }
    }
    if i >= MinGap(nth, total) && i <= blanks && GapTail(g, blanks - i, nth + 1, total) {
      forall j | 0 <= j < |t|
        ensures t[j] >= MinGap(nth + j, total)
      {
        if j > 0 {
          assert t[j] == g[j - 1];
        }
      }
    }
  }

  lemma {:induction false} GapTailEnd(g: seq<nat>, blanks: nat, nth: nat, total: nat)
    requires nth == total + 1
    ensures GapTail(g, blanks, nth, total) <==> g == [] && blanks == 0
  {
  }

  /** Every vector `make_candidates` pushes is `base` followed by a legal
      filling of the remaining slots with exactly `blanks` cells. */
  lemma {:induction false} MakeCandidatesSound(blanks: nat, nth: nat, total: nat, base: seq<nat>)
    requires 1 <= nth <= total + 1
    ensures forall r :: r in MakeCandidates(blanks, nth, total, base) ==>
      |base| <= |r| && r[..|base|] == base && GapTail(r[|base|..], blanks, nth, total)
    decreases total + 1 - nth, blanks + 2
  {
    if nth > total {
      forall r | r in MakeCandidates(blanks, nth, total, base)
        ensures |base| <= |r| && r[..|base|] == base && GapTail(r[|base|..], blanks, nth, total)
      {
        assert r == base;
        assert r[|base|..] == [];
      }
    } else {
      SpreadSound(blanks, nth, total, base, MinGap(nth, total));
    }
  }

  lemma {:induction false} SpreadSound(blanks: nat, nth: nat, total: nat, base: seq<nat>, i: nat)
    requires 1 <= nth <= total && i <= blanks + 1
    requires i >= MinGap(nth, total)
    ensures forall r :: r in Spread(blanks, nth, total, base, i) ==>
      |r| > |base| && r[..|base|] == base && r[|base|] >= i && GapTail(r[|base|..], blanks, nth, total)
    decreases total + 1 - nth, blanks + 1 - i
  {
    if i <= blanks {
      var here := MakeCandidates(blanks - i, nth + 1, total, base + [i]);
      MakeCandidatesSound(blanks - i, nth + 1, total, base + [i]);
      SpreadSound(blanks, nth, total, base, i + 1);
      forall r | r in here
        ensures |r| > |base| && r[..|base|] == base && r[|base|] >= i && GapTail(r[|base|..], blanks, nth, total)
      {
        var b := base + [i];
        assert |b| <= |r| && r[..|b|] == b;
        assert r[..|base|] == b[..|base|] == base;
        assert r[|base|] == b[|base|] == i;
        assert r[|base|..] == [i] + r[|b|..];
        GapTailCons(i, r[|b|..], blanks, nth, total);
      }
    }
  }

  /** Conversely, every legal filling of the remaining slots is pushed. */
  lemma {:induction false} MakeCandidatesComplete(blanks: nat, nth: nat, total: nat, base: seq<nat>, g: seq<nat>)
    requires 1 <= nth <= total + 1
    requires GapTail(g, blanks, nth, total)
    ensures base + g in MakeCandidates(blanks, nth, total, base)
    decreases total + 1 - nth, blanks + 2
  {
    if nth > total {
      GapTailEnd(g, blanks, nth, total);
      assert base + g == base;
    } else {
      assert g == [g[0]] + g[1..];
      GapTailCons(g[0], g[1..], blanks, nth, total);
      SpreadComplete(blanks, nth, total, base, MinGap(nth, total), g);
    }
  }

  lemma {:induction false} SpreadComplete(blanks: nat, nth: nat, total: nat, base: seq<nat>, i: nat, g: seq<nat>)
    requires 1 <= nth <= total && i <= blanks + 1
    requires |g| > 0 && i <= g[0] <= blanks
    requires GapTail(g[1..], blanks - g[0], nth + 1, total)
    ensures base + g in Spread(blanks, nth, total, base, i)
    decreases total + 1 - nth, blanks + 1 - i
  {
    if i == g[0] {
      MakeCandidatesComplete(blanks - i, nth + 1, total, base + [i], g[1..]);
      assert (base + [i]) + g[1..] == base + g;
    } else {
      SpreadComplete(blanks, nth, total, base, i + 1, g);
    }
  }

  /** No vector is pushed twice. */
  lemma {:induction false} MakeCandidatesDistinct(blanks: nat, nth: nat, total: nat, base: seq<nat>)
    requires 1 <= nth <= total + 1
    ensures NoDuplicates(MakeCandidates(blanks, nth, total, base))
    decreases total + 1 - nth, blanks + 2
  {
    if nth <= total {
      SpreadDistinct(blanks, nth, total, base, MinGap(nth, total));
    }
  }

  lemma {:induction false} SpreadDistinct(blanks: nat, nth: nat, total: nat, base: seq<nat>, i: nat)
    requires 1 <= nth <= total && i <= blanks + 1
    requires i >= MinGap(nth, total)
    ensures NoDuplicates(Spread(blanks, nth, total, base, i))
    decreases total + 1 - nth, blanks + 1 - i
  {
    if i <= blanks {
      var here := MakeCandidates(blanks - i, nth + 1, total, base + [i]);
      var later := Spread(blanks, nth, total, base, i + 1);
      MakeCandidatesDistinct(blanks - i, nth + 1, total, base + [i]);
      SpreadDistinct(blanks, nth, total, base, i + 1);
      MakeCandidatesSound(blanks - i, nth + 1, total, base + [i]);
      SpreadSound(blanks, nth, total, base, i + 1);
      forall r | r in here
        ensures r !in later
      {
        var b := base + [i];
        assert |b| <= |r| && r[..|b|] == b;
        assert r[|base|] == b[|base|] == i;
      }
      NoDuplicatesAppend(here, later);
    }
  }

  /** With `nth == 1` and `total == k + 1` the slot-by-slot condition is
      exactly a legal gap vector. */
  lemma {:induction false} GapTailIsGapVector(g: seq<nat>, k: nat, blanks: nat)
    ensures GapTail(g, blanks, 1, k + 1) <==> IsGapVector(g, k, blanks)
  {
    if |g| == k + 1 {
      if InteriorGapsPositive(g) {
        forall j | 0 <= j < |g|
          ensures g[j] >= MinGap(1 + j, k + 1)
        {
          if 0 < j < |g| - 1 {
            assert g[j] >= 1;
          }
        }
      }
      if forall j :: 0 <= j < |g| ==> g[j] >= MinGap(1 + j, k + 1) {
        forall j | 0 < j < |g| - 1
          ensures g[j] >= 1
        {
          assert MinGap(1 + j, k + 1) == 1;
        }
      }
    }
  }

  /** `make_candidates(blanks, 1, k + 1, [], _)` pushes every legal gap
      vector for `k` runs and `blanks` blank cells, each exactly once, and
      nothing else. */
  lemma {:induction false} GapVectorsExactlyOnce(k: nat, blanks: nat)
    ensures forall g :: g in MakeCandidates(blanks, 1, k + 1, []) <==> IsGapVector(g, k, blanks)
    ensures NoDuplicates(MakeCandidates(blanks, 1, k + 1, []))
  {
    MakeCandidatesSound(blanks, 1, k + 1, []);
    MakeCandidatesDistinct(blanks, 1, k + 1, []);
    forall g
      ensures g in MakeCandidates(blanks, 1, k + 1, []) <==> IsGapVector(g, k, blanks)
    {
      GapTailIsGapVector(g, k, blanks);
      assert g[..0] == [] && g[0..] == g;
      if IsGapVector(g, k, blanks) {
        MakeCandidatesComplete(blanks, 1, k + 1, [], g);
        assert [] + g == g;
      }
    }
  }

  lemma {:induction false} GapVectorOfMember(k: nat, blanks: nat, g: seq<nat>)
    requires g in MakeCandidates(blanks, 1, k + 1, [])
    ensures IsGapVector(g, k, blanks)
  {
    GapVectorsExactlyOnce(k, blanks);
  }

  lemma {:induction false} MemberOfGapVector(k: nat, blanks: nat, g: seq<nat>)
    requires IsGapVector(g, k, blanks)
    ensures g in MakeCandidates(blanks, 1, k + 1, [])
  {
    GapVectorsExactlyOnce(k, blanks);
  }

  /** The gap vectors `candidates` asks for: `k + 1` slots, `blanks` cells. */
  function GapVectors(k: nat, blanks: nat): (gaps: seq<seq<nat>>)
    ensures forall g :: g in gaps ==> IsGapVector(g, k, blanks)
  {
    GapVectorsExactlyOnce(k, blanks);
    MakeCandidates(blanks, 1, k + 1, [])
  }

  lemma {:induction false} GapVectorsAreLegal(k: nat, blanks: nat, gaps: seq<seq<nat>>)
    requires gaps == GapVectors(k, blanks)
    ensures forall g :: g in gaps ==> |g| == k + 1 && IsGapVector(g, k, blanks)
  {
    forall g | g in gaps
      ensures |g| == k + 1 && IsGapVector(g, k, blanks)
    {
      GapVectorOfMember(k, blanks, g);
    }
  }

  /** `into_mask` applied to every gap vector, in order. */
  function IntoMasks(gaps: seq<seq<nat>>, runs: seq<nat>): (res: seq<Mask>)
    requires forall g :: g in gaps ==> |g| == |runs| + 1
    ensures |res| == |gaps|
  {
    if |gaps| == 0 then [] else [IntoMask(gaps[0], runs)] + IntoMasks(gaps[1..], runs)
  }

  /** The i-th mask is the mask of the i-th gap vector. */
  lemma {:induction false} IntoMasksAt(gaps: seq<seq<nat>>, runs: seq<nat>, i: nat)
    requires forall g :: g in gaps ==> |g| == |runs| + 1
    requires i < |gaps|
    ensures IntoMasks(gaps, runs)[i] == IntoMask(gaps[i], runs)
    decreases i
  {
    if i > 0 {
      IntoMasksAt(gaps[1..], runs, i - 1);
    }
  }

  lemma {:induction false} IntoMasksPointwise(gaps: seq<seq<nat>>, runs: seq<nat>)
    requires forall g :: g in gaps ==> |g| == |runs| + 1
    ensures forall i {:trigger IntoMasks(gaps, runs)[i]} :: 0 <= i < |gaps| ==>
      IntoMasks(gaps, runs)[i] == IntoMask(gaps[i], runs)
  {
    forall i | 0 <= i < |gaps|
      ensures IntoMasks(gaps, runs)[i] == IntoMask(gaps[i], runs)
    {
      IntoMasksAt(gaps, runs, i);
    }
  }

  lemma {:induction false} IntoMasksOfGapVectors(gaps: seq<seq<nat>>, runs: seq<nat>, blanks: nat, res: seq<Mask>)
    requires forall g :: g in gaps ==> |g| == |runs| + 1 && IsGapVector(g, |runs|, blanks)
    requires res == IntoMasks(gaps, runs)
    ensures |res| == |gaps|
    ensures forall i :: 0 <= i < |gaps| ==>
      IsGapVector(gaps[i], |runs|, blanks) && res[i] == IntoMask(gaps[i], runs)
  {
    IntoMasksPointwise(gaps, runs);
    forall i | 0 <= i < |gaps|
      ensures IsGapVector(gaps[i], |runs|, blanks)
    {
      assert gaps[i] in gaps;
    }
  }

  /** `candidates`: the mask of every placement of `constraint` on a line of
      `capacity` cells. The source computes the number of blanks with an
      unsigned subtraction, so the filled cells must fit. */
  function Candidates(constraint: seq<nat>, capacity: nat): (res: seq<Mask>)
    requires Sum(constraint) <= capacity
    ensures forall m :: m in res ==> |m| == capacity && Determined(m)
  {
    var gaps := GapVectors(|constraint|, capacity - Sum(constraint));
    IntoMasksPointwise(gaps, constraint);
    IntoMasks(gaps, constraint)
  }

  lemma {:induction false} CandidatesUnfold(constraint: seq<nat>, capacity: nat, gaps: seq<seq<nat>>)
    requires Sum(constraint) <= capacity
    requires gaps == GapVectors(|constraint|, capacity - Sum(constraint))
    requires forall g :: g in gaps ==> |g| == |constraint| + 1
    ensures Candidates(constraint, capacity) == IntoMasks(gaps, constraint)
  {
  }

  /** The i-th candidate is the mask of the i-th gap vector. */
  lemma {:induction false} CandidatesShape(constraint: seq<nat>, capacity: nat)
    requires Sum(constraint) <= capacity
    ensures |Candidates(constraint, capacity)| == |GapVectors(|constraint|, capacity - Sum(constraint))|
    ensures forall i :: 0 <= i < |Candidates(constraint, capacity)| ==>
      && IsGapVector(GapVectors(|constraint|, capacity - Sum(constraint))[i], |constraint|, capacity - Sum(constraint))
      && Candidates(constraint, capacity)[i] == IntoMask(GapVectors(|constraint|, capacity - Sum(constraint))[i], constraint)
  {
    var blanks := capacity - Sum(constraint);
    var gaps := GapVectors(|constraint|, blanks);
    GapVectorsAreLegal(|constraint|, blanks, gaps);
    CandidatesUnfold(constraint, capacity, gaps);
    IntoMasksOfGapVectors(gaps, constraint, blanks, Candidates(constraint, capacity));
  }

  /** For positive runs, the candidates are exactly the fully decided masks
      of the line's length whose maximal filled runs, left to right, are the
      constraint. */
  lemma {:induction false} CandidatesArePlacements(constraint: seq<nat>, capacity: nat)
    requires Sum(constraint) <= capacity && AllPositive(constraint)
    ensures forall m :: m in Candidates(constraint, capacity) <==>
      |m| == capacity && Determined(m) && Runs(m) == constraint
  {
    forall m | m in Candidates(constraint, capacity)
      ensures Runs(m) == constraint
    {
      CandidateRuns(constraint, capacity, m);
    }
    forall m | |m| == capacity && Determined(m) && Runs(m) == constraint
      ensures m in Candidates(constraint, capacity)
    {
      PlacementIsCandidate(constraint, capacity, m);
    }
  }

  lemma {:induction false} CandidateRuns(constraint: seq<nat>, capacity: nat, m: Mask)
    requires Sum(constraint) <= capacity && AllPositive(constraint)
    requires m in Candidates(constraint, capacity)
    ensures Runs(m) == constraint
  {
    var res := Candidates(constraint, capacity);
    CandidatesShape(constraint, capacity);
    var i :| 0 <= i < |res| && res[i] == m;
    DecodeIntoMask(GapVectors(|constraint|, capacity - Sum(constraint))[i], constraint);
  }

  /** The gaps read back from a placement of the constraint form a gap
      vector for the line's blanks. */
  lemma {:induction false} DecodedGapsAreLegal(constraint: seq<nat>, capacity: nat, m: Mask)
    requires Sum(constraint) <= capacity
    requires |m| == capacity && Determined(m) && Runs(m) == constraint
    ensures IsGapVector(Gaps(m), |constraint|, capacity - Sum(constraint))
    ensures IntoMask(Gaps(m), constraint) == m
  {
    IntoMaskOfDecode(m);
  }

  lemma {:induction false} PlacementIsCandidate(constraint: seq<nat>, capacity: nat, m: Mask)
    requires Sum(constraint) <= capacity && AllPositive(constraint)
    requires |m| == capacity && Determined(m) && Runs(m) == constraint
    ensures m in Candidates(constraint, capacity)
  {
    DecodedGapsAreLegal(constraint, capacity, m);
    MemberOfGapVector(|constraint|, capacity - Sum(constraint), Gaps(m));
    MaskOfGapVectorIsCandidate(constraint, capacity, Gaps(m));
  }

  lemma {:induction false} MaskOfGapVectorIsCandidate(constraint: seq<nat>, capacity: nat, g: seq<nat>)
    requires Sum(constraint) <= capacity
    requires g in GapVectors(|constraint|, capacity - Sum(constraint))
    ensures |g| == |constraint| + 1
    ensures IntoMask(g, constraint) in Candidates(constraint, capacity)
  {
    var gaps := GapVectors(|constraint|, capacity - Sum(constraint));
    GapVectorsAreLegal(|constraint|, capacity - Sum(constraint), gaps);
    var i :| 0 <= i < |gaps| && gaps[i] == g;
    CandidatesUnfold(constraint, capacity, gaps);
    IntoMasksAt(gaps, constraint, i);
  }

  /** The runs a clue asks for. The puzzle format has no empty clue line,
      so a blank line is written as the lone clue `0`. */
  function ClueRuns(clue: seq<nat>): (runs: seq<nat>)
    ensures Sum(runs) == Sum(clue)
    ensures AllPositive(clue) ==> runs == clue
  {
    if clue == [0] then [] else clue
  }

  /** A clue `candidates` reads as intended: positive runs, or the lone `0`
      of a blank line. */
  predicate WellFormedClue(clue: seq<nat>) {
    clue == [0] || AllPositive(clue)
  }

  /** The lone `0` clue: its one run is empty, so every gap vector gives
      the all-Empty line. */
  lemma {:induction false} CandidatesOfBlankClue(constraint: seq<nat>, capacity: nat)
    requires constraint == [0]
    ensures Sum(constraint) <= capacity
    ensures forall m :: m in Candidates(constraint, capacity) <==> m == Repeat(Empty, capacity)
  {
    assert constraint[1..] == [];
    assert Sum(constraint) == 0 && |constraint| == 1;
    var cands := Candidates(constraint, capacity);
    var gaps := GapVectors(1, capacity);
    CandidatesShape(constraint, capacity);
    forall i | 0 <= i < |cands|
      ensures cands[i] == Repeat(Empty, capacity)
    {
      EmptyRunMask(gaps[i], constraint, capacity);
    }
    var blank := BlankGapVector(capacity);
    MaskOfGapVectorIsCandidate(constraint, capacity, blank);
    EmptyRunMask(blank, constraint, capacity);
  }

  /** All blanks in the first slot: a gap vector for one run. */
  function BlankGapVector(blanks: nat): (g: seq<nat>)
    ensures IsGapVector(g, 1, blanks)
    ensures g in GapVectors(1, blanks)
  {
    var g := [0, blanks];
    assert g[1..] == [blanks] && g[1..][1..] == [];
    assert Sum(g[1..]) == blanks + Sum(g[1..][1..]);
    GapVectorsExactlyOnce(1, blanks);
    assert IsGapVector(g, 1, blanks);
    assert GapVectors(1, blanks) == MakeCandidates(blanks, 1, 1 + 1, []);
    g
  }

  /** A run of length 0 between two gaps leaves only blanks. */
  lemma {:induction false} EmptyRunMask(g: seq<nat>, runs: seq<nat>, blanks: nat)
    requires runs == [0] && IsGapVector(g, 1, blanks)
    ensures IntoMask(g, runs) == Repeat(Empty, blanks)
  {
    assert g[1..] == [g[1]] && g[1..][1..] == [];
    assert Sum(g[1..]) == g[1] + Sum(g[1..][1..]);
    assert IntoMask(g, runs) == Repeat(Empty, g[0]) + Repeat(Filled, 0) + Repeat(Empty, g[1]);
  }

  /** For a well-formed clue, a mask is a candidate exactly when it is
      fully decided, as long as the line, and its runs are the ones the
      clue asks for; the lone `0` gives the all-Empty line. */
  lemma {:induction false} CandidatesAreClueRuns(constraint: seq<nat>, capacity: nat)
    requires Sum(constraint) <= capacity && WellFormedClue(constraint)
    ensures forall m :: m in Candidates(constraint, capacity) <==>
      |m| == capacity && Determined(m) && Runs(m) == ClueRuns(constraint)
  {
    if constraint == [0] {
      CandidatesOfBlankClue(constraint, capacity);
      forall m | |m| == capacity && Determined(m)
        ensures Runs(m) == [] <==> m == Repeat(Empty, capacity)
      {
        IntoMaskOfDecode(m);
        if m == Repeat(Empty, capacity) {
          DecodeIntoMask([capacity], []);
          assert IntoMask([capacity], []) == m;
        }
      }
    } else {
      CandidatesArePlacements(constraint, capacity);
    }
  }

  /** For positive runs no mask is generated twice: the gap vectors differ
      and the gaps can be read back from the mask. */
  lemma {:induction false} CandidatesDistinct(constraint: seq<nat>, capacity: nat)
    requires Sum(constraint) <= capacity && AllPositive(constraint)
    ensures NoDuplicates(Candidates(constraint, capacity))
  {
    var k, blanks := |constraint|, capacity - Sum(constraint);
    var gaps := GapVectors(k, blanks);
    var res := Candidates(constraint, capacity);
    CandidatesShape(constraint, capacity);
    MakeCandidatesDistinct(blanks, 1, k + 1, []);
    forall i, j | 0 <= i < j < |res|
      ensures res[i] != res[j]
    {
      DistinctGapsDistinctMasks(gaps[i], gaps[j], constraint, blanks);
    }
  }

  lemma {:induction false} DistinctGapsDistinctMasks(g1: seq<nat>, g2: seq<nat>, runs: seq<nat>, blanks: nat)
    requires IsGapVector(g1, |runs|, blanks) && IsGapVector(g2, |runs|, blanks)
    requires AllPositive(runs) && g1 != g2
    ensures IntoMask(g1, runs) != IntoMask(g2, runs)
  {
    DecodeIntoMask(g1, runs);
    DecodeIntoMask(g2, runs);
  }

  /** An empty constraint has exactly one placement: the all-Empty line. */
  lemma {:induction false} CandidatesOfEmptyConstraint(capacity: nat)
    ensures Candidates([], capacity) == [Repeat(Empty, capacity)]
  {
    OnlyGapVectorOfNoRuns(capacity);
    CandidatesShape([], capacity);
    assert IntoMask([capacity], []) == Repeat(Empty, capacity);
  }

  lemma {:induction false} SingleGapVector(g: seq<nat>, blanks: nat)
    requires IsGapVector(g, 0, blanks)
    ensures g == [blanks]
  {
    assert g == [g[0]];
    assert Sum(g) == g[0] + Sum(g[1..]);
  }

  lemma {:induction false} OnlyGapVectorOfNoRuns(blanks: nat)
    ensures GapVectors(0, blanks) == [[blanks]]
  {
    var gaps := GapVectors(0, blanks);
    assert IsGapVector([blanks], 0, blanks);
    MemberOfGapVector(0, blanks, [blanks]);
    MakeCandidatesDistinct(blanks, 1, 1, []);
    GapVectorsAreLegal(0, blanks, gaps);
    assert gaps[0] in gaps;
    SingleGapVector(gaps[0], blanks);
    if |gaps| > 1 {
      assert gaps[1] in gaps;
      SingleGapVector(gaps[1], blanks);
      assert false;
    }
  }

  lemma {:induction false} SumOfInteriorGaps(g: seq<nat>)
    requires |g| >= 2 && InteriorGapsPositive(g)
    ensures Sum(g) >= |g| - 2
    decreases |g|
  {
    if |g| > 2 {
      assert g == [g[0]] + g[1..];
      var t := g[1..];
      assert t[0] >= 1;
      assert InteriorGapsPositive([0] + t[1..]) by {
        forall j | 0 < j < |t| - 1
          ensures ([0] + t[1..])[j] >= 1
        {
          assert ([0] + t[1..])[j] == g[j + 1];
        }
      }
      SumOfInteriorGaps([0] + t[1..]);
      assert ([0] + t[1..])[1..] == t[1..];
      assert Sum(t) == t[0] + Sum(t[1..]);
    }
  }

  lemma {:induction false} NoGapVectorsWhenOvercrowded(k: nat, blanks: nat)
    requires k > 0 && blanks < k - 1
    ensures GapVectors(k, blanks) == []
  {
    var gaps := GapVectors(k, blanks);
    if |gaps| > 0 {
      var g := gaps[0];
      assert g in gaps;
      GapVectorOfMember(k, blanks, g);
      SumOfInteriorGaps(g);
      assert false;
    }
  }

  /** When the runs fit but their separators do not, there is no placement. */
  lemma {:induction false} CandidatesOfOvercrowdedLine(constraint: seq<nat>, capacity: nat)
    requires |constraint| > 0
    requires Sum(constraint) <= capacity < Sum(constraint) + |constraint| - 1
    ensures Candidates(constraint, capacity) == []
  {
    var k, blanks := |constraint|, capacity - Sum(constraint);
    assert blanks < k - 1;
    NoGapVectorsWhenOvercrowded(k, blanks);
    CandidatesShape(constraint, capacity);
    assert |Candidates(constraint, capacity)| == 0;
  }
}

=== FILE: grid.dfy ===
/** The nonogram grid (`Nonogram` in src/nonogram.rs): dimensions, a
    row-major cell vector and the per-row and per-column constraints. */
module Grid {
  import opened Cells
  import opened Results
  import opened Seqs

  /** Lengths of the filled runs of one line, in order. */
  type Constraint = seq<nat>

  datatype Nonogram = Nonogram(
    width: nat,
    height: nat,
    cells: seq<CellState>,
    rows: seq<Constraint>,
    cols: seq<Constraint>)
  {
    /** The shape every constructor establishes and every mutation keeps. */
    predicate Valid() {
      |cells| == width * height
    }
  }

  /** `Nonogram::new`: note the column constraints come before the rows. */
  function New(width: nat, height: nat, cols: seq<Constraint>, rows: seq<Constraint>): (n: Nonogram)
    ensures n.Valid()
    ensures n.width == width && n.height == height
    ensures n.rows == rows && n.cols == cols
    ensures forall i :: 0 <= i < |n.cells| ==> n.cells[i] == Undecided
  {
    Nonogram(width, height, Repeat(Undecided, width * height), rows, cols)
  }

  /** Row-major addressing. */
  function XyToIndex(n: Nonogram, x: nat, y: nat): nat {
    y * n.width + x
  }

  lemma {:induction false} RowStartBound(w: nat, h: nat, y: nat)
    requires y < h
    ensures y * w + w <= w * h
  {
    assert y * w + w == (y + 1) * w;
    assert (y + 1) * w <= h * w by {
      MulMonotone(y + 1, h, w);
    }
  }

  lemma {:induction false} MulMonotone(a: nat, b: nat, c: nat)
    requires a <= b
    ensures a * c <= b * c
  {
  }

  /** Inside the grid, `xy_to_index` lands inside the cell vector and no two
      cells share an index; every index is some cell's. */
  lemma {:induction false} XyToIndexBijective(n: Nonogram)
    ensures forall x: nat, y: nat :: x < n.width && y < n.height ==> XyToIndex(n, x, y) < n.width * n.height
    ensures forall x1: nat, y1: nat, x2: nat, y2: nat ::
      x1 < n.width && x2 < n.width && XyToIndex(n, x1, y1) == XyToIndex(n, x2, y2) ==> x1 == x2 && y1 == y2
    ensures forall k: nat :: k < n.width * n.height ==>
      k % n.width < n.width && k / n.width < n.height && XyToIndex(n, k % n.width, k / n.width) == k
  {
    forall x: nat, y: nat | x < n.width && y < n.height
      ensures XyToIndex(n, x, y) < n.width * n.height
    {
      RowStartBound(n.width, n.height, y);
    }
    forall x1: nat, y1: nat, x2: nat, y2: nat | x1 < n.width && x2 < n.width && XyToIndex(n, x1, y1) == XyToIndex(n, x2, y2)
      ensures x1 == x2 && y1 == y2
    {
      IndexInjective(n.width, x1, y1, x2, y2);
    }
    forall k: nat | k < n.width * n.height
      ensures k % n.width < n.width && k / n.width < n.height && XyToIndex(n, k % n.width, k / n.width) == k
    {
      IndexSplit(n.width, n.height, k);
    }
  }

  lemma {:induction false} IndexInjective(w: nat, x1: nat, y1: nat, x2: nat, y2: nat)
    requires x1 < w && x2 < w && y1 * w + x1 == y2 * w + x2
    ensures x1 == x2 && y1 == y2
  {
    if y1 < y2 {
      MulMonotone(y1 + 1, y2, w);
      assert false;
    } else if y2 < y1 {
      MulMonotone(y2 + 1, y1, w);
      assert false;
    }
  }

  lemma {:induction false} IndexSplit(w: nat, h: nat, k: nat)
    requires k < w * h
    ensures w > 0 && k % w < w && k / w < h && (k / w) * w + k % w == k
  {
    if w == 0 {
      assert false;
    }
    if k / w >= h {
      MulMonotone(h, k / w, w);
      assert false;
    }
  }

  lemma {:induction false} IndexInGrid(n: Nonogram, x: nat, y: nat)
    requires n.Valid() && x < n.width && y < n.height
    ensures XyToIndex(n, x, y) < |n.cells|
  {
    RowStartBound(n.width, n.height, y);
  }

  /** `Index<(usize, usize)>`, for a cell inside the grid. */
  function Get(n: Nonogram, x: nat, y: nat): CellState
    requires n.Valid() && x < n.width && y < n.height
  {
    IndexInGrid(n, x, y);
    n.cells[XyToIndex(n, x, y)]
  }

  /** Assignment through `IndexMut<(usize, usize)>`, for a cell inside the grid. */
  function Set(n: Nonogram, x: nat, y: nat, v: CellState): (r: Nonogram)
    requires n.Valid() && x < n.width && y < n.height
    ensures r.width == n.width && r.height == n.height && r.rows == n.rows && r.cols == n.cols
    ensures r.Valid()
  {
    IndexInGrid(n, x, y);
    n.(cells := n.cells[XyToIndex(n, x, y) := v])
  }

  /** Writing cell (x, y) of a grid changes that cell and no other. */
  lemma {:induction false} SetChangesOnlyThatCell(n: Nonogram, x: nat, y: nat, v: CellState)
    requires n.Valid() && x < n.width && y < n.height
    ensures forall x': nat, y': nat :: x' < n.width && y' < n.height ==>
      Get(Set(n, x, y, v), x', y') == if x' == x && y' == y then v else Get(n, x', y')
  {
    forall x': nat, y': nat | x' < n.width && y' < n.height
      ensures Get(Set(n, x, y, v), x', y') == if x' == x && y' == y then v else Get(n, x', y')
    {
      IndexInGrid(n, x', y');
      IndexInGrid(n, x, y);
      if XyToIndex(n, x', y') == XyToIndex(n, x, y) {
        IndexInjective(n.width, x', y', x, y);
      }
    }
  }

  /** `row`: the contiguous slice of row `y`, or None past the last row. */
  function Row(n: Nonogram, y: nat): (r: Option<seq<CellState>>)
    requires n.Valid()
    ensures r.None? <==> y >= n.height
    ensures r.Some? ==> |r.value| == n.width
    ensures r.Some? ==> forall x: nat :: x < n.width ==> r.value[x] == Get(n, x, y)
  {
    if y >= n.height then None
    else
      RowStartBound(n.width, n.height, y);
      var start, stop := XyToIndex(n, 0, y), XyToIndex(n, n.width, y);
      assert stop == start + n.width;
      Some(n.cells[start..stop])
  }

  /** `column`: the gathered copy of column `x`, or None past the last
      column. Columns are not contiguous, so they are pushed cell by cell. */
  function Column(n: Nonogram, x: nat): (r: Option<seq<CellState>>)
    requires n.Valid()
    ensures r.None? <==> x >= n.width
    ensures r.Some? ==> |r.value| == n.height
    ensures r.Some? ==> forall y: nat :: y < n.height ==> r.value[y] == Get(n, x, y)
  {
    if x >= n.width then None else Some(Gather(n, x, n.height))
  }

  /** The first `count` cells of column `x`, top to bottom. */
  function Gather(n: Nonogram, x: nat, count: nat): (r: seq<CellState>)
    requires n.Valid() && x < n.width && count <= n.height
    ensures |r| == count
    ensures forall y: nat :: y < count ==> r[y] == Get(n, x, y)
  {
    if count == 0 then []
    else
      Gather(n, x, count - 1) + [Get(n, x, count - 1)]
  }

  /** `clear_solution`: forget every deduction, keep the puzzle. */
  function ClearSolution(n: Nonogram): (r: Nonogram)
    ensures r.width == n.width && r.height == n.height && r.rows == n.rows && r.cols == n.cols
    ensures |r.cells| == |n.cells|
    ensures forall i :: 0 <= i < |r.cells| ==> r.cells[i] == Undecided
  {
    n.(cells := Repeat(Undecided, |n.cells|))
  }

  /** Clearing is idempotent, and what it yields does not depend on the
      cells it is given, only on the puzzle and the number of cells. */
  lemma {:induction false} ClearSolutionForgetsCells(n: Nonogram, m: Nonogram)
    requires n.width == m.width && n.height == m.height && n.rows == m.rows && n.cols == m.cols
    requires |n.cells| == |m.cells|
    ensures ClearSolution(n) == ClearSolution(m)
    ensures ClearSolution(ClearSolution(n)) == ClearSolution(n)
  {
    assert ClearSolution(n).cells == ClearSolution(m).cells;
    assert ClearSolution(ClearSolution(n)).cells == ClearSolution(n).cells;
  }

  /** Row and column views of the same grid agree cell by cell. */
  lemma {:induction false} RowColumnAgree(n: Nonogram, x: nat, y: nat)
    requires n.Valid() && x < n.width && y < n.height
    ensures Row(n, y).value[x] == Column(n, x).value[y]
  {
  }

  /** Two grids of the same shape that agree on every cell have the same
      cell vector. */
  lemma {:induction false} CellsDetermineGrid(a: Nonogram, b: Nonogram)
    requires a.Valid() && b.Valid() && a.width == b.width && a.height == b.height
    requires forall x: nat, y: nat :: x < a.width && y < a.height ==> Get(a, x, y) == Get(b, x, y)
    ensures a.cells == b.cells
  {
    XyToIndexBijective(a);
    forall k | 0 <= k < |a.cells|
      ensures a.cells[k] == b.cells[k]
    {
      var x, y := k % a.width, k / a.width;
      assert Get(a, x, y) == Get(b, x, y);
    }
  }
}

=== FILE: masks.dfy ===
/** Candidate masks: full-length placements of one line's runs
    (`CandidateMask` and `into_mask` in src/solver.rs), together with the
    decoding that reads a mask's runs and gaps back. */
module Masks {
  import opened Cells
  import opened Seqs

  type Mask = seq<CellState>

  /** Every cell is Empty or Filled. */
  predicate Determined(m: Mask) {
    forall i :: 0 <= i < |m| ==> m[i] != Undecided
  }

  predicate AllPositive(runs: seq<nat>) {
    forall j :: 0 <= j < |runs| ==> runs[j] > 0
  }

  /** The separators between two runs hold at least one cell; the outer two may be empty. */
  predicate InteriorGapsPositive(gaps: seq<nat>) {
    forall j :: 0 < j < |gaps| - 1 ==> gaps[j] >= 1
  }

  /** Number of leading cells that are not Filled. */
  function LeadBlank(m: Mask): (n: nat)
    ensures n <= |m|
  {
    if |m| == 0 || m[0] == Filled then 0 else 1 + LeadBlank(m[1..])
  }

  /** `LeadBlank` counts exactly the cells before the first Filled one. */
  lemma {:induction false} LeadBlankStops(m: Mask)
    ensures forall i :: 0 <= i < LeadBlank(m) ==> m[i] != Filled
    ensures LeadBlank(m) < |m| ==> m[LeadBlank(m)] == Filled
    decreases |m|
  {
    if |m| > 0 && m[0] != Filled {
      LeadBlankStops(m[1..]);
    }
  }

  /** Number of leading Filled cells. */
  function LeadFilled(m: Mask): (n: nat)
    ensures n <= |m|
  {
    if |m| == 0 || m[0] != Filled then 0 else 1 + LeadFilled(m[1..])
  }

  /** `LeadFilled` counts exactly the Filled cells before the first other one. */
  lemma {:induction false} LeadFilledStops(m: Mask)
    ensures forall i :: 0 <= i < LeadFilled(m) ==> m[i] == Filled
    ensures LeadFilled(m) < |m| ==> m[LeadFilled(m)] != Filled
    decreases |m|
  {
    if |m| > 0 && m[0] == Filled {
      LeadFilledStops(m[1..]);
    }
  }

  /** The maximal runs of Filled cells of a mask, read left to right: the
      constraint a mask satisfies. */
  function Runs(m: Mask): seq<nat>
    decreases |m|
  {
    var e := LeadBlank(m);
    if e == |m| then []
    else
      var f := LeadFilled(m[e..]);
      [f] + Runs(m[e + f..])
  }

  /** The lengths of the blank stretches around the runs of a mask: one
      before each run and one after the last. */
  function Gaps(m: Mask): seq<nat>
    decreases |m|
  {
    var e := LeadBlank(m);
    if e == |m| then [e]
    else
      var f := LeadFilled(m[e..]);
      [e] + Gaps(m[e + f..])
  }

  /** `into_mask`: `gaps[0]` Empty cells, `runs[0]` Filled cells, ...,
      `gaps[k]` Empty cells. The source asserts the two lengths agree. */
  function IntoMask(gaps: seq<nat>, runs: seq<nat>): (m: Mask)
    requires |gaps| == |runs| + 1
    ensures |m| == Sum(gaps) + Sum(runs)
    ensures Determined(m)
  {
    if |runs| == 0 then Repeat(Empty, gaps[0])
    else Repeat(Empty, gaps[0]) + Repeat(Filled, runs[0]) + IntoMask(gaps[1..], runs[1..])
  }

  lemma {:induction false} LeadBlankOfEmpties(g: nat, x: Mask)
    requires |x| == 0 || x[0] == Filled
    ensures LeadBlank(Repeat(Empty, g) + x) == g
    decreases g
  {
    if g > 0 {
      assert (Repeat(Empty, g) + x)[1..] == Repeat(Empty, g - 1) + x;
      LeadBlankOfEmpties(g - 1, x);
    } else {
      assert Repeat(Empty, g) + x == x;
    }
  }

  lemma {:induction false} LeadFilledOfFilleds(f: nat, x: Mask)
    requires |x| == 0 || x[0] != Filled
    ensures LeadFilled(Repeat(Filled, f) + x) == f
    decreases f
  {
    if f > 0 {
      assert (Repeat(Filled, f) + x)[1..] == Repeat(Filled, f - 1) + x;
      LeadFilledOfFilleds(f - 1, x);
    } else {
      assert Repeat(Filled, f) + x == x;
    }
  }

  /** One step of decoding, once the leading blanks and run are known. */
  lemma {:induction false} RunsUnfold(m: Mask)
    requires LeadBlank(m) < |m|
    ensures Runs(m) == [LeadFilled(m[LeadBlank(m)..])] + Runs(m[LeadBlank(m) + LeadFilled(m[LeadBlank(m)..])..])
  {
  }

  lemma {:induction false} GapsUnfold(m: Mask)
    requires LeadBlank(m) < |m|
    ensures Gaps(m) == [LeadBlank(m)] + Gaps(m[LeadBlank(m) + LeadFilled(m[LeadBlank(m)..])..])
  {
  }

  lemma {:induction false} DecodeFirstRun(e: nat, f: nat, rest: Mask)
    requires f > 0 && (|rest| == 0 || rest[0] != Filled)
    ensures Runs(Repeat(Empty, e) + Repeat(Filled, f) + rest) == [f] + Runs(rest)
    ensures Gaps(Repeat(Empty, e) + Repeat(Filled, f) + rest) == [e] + Gaps(rest)
  {
    var tail := Repeat(Filled, f) + rest;
    var m := Repeat(Empty, e) + tail;
    assert Repeat(Empty, e) + Repeat(Filled, f) + rest == m;
    LeadBlankOfEmpties(e, tail);
    assert m[LeadBlank(m)..] == tail;
    LeadFilledOfFilleds(f, rest);
    assert m[LeadBlank(m) + LeadFilled(m[LeadBlank(m)..])..] == rest;
    RunsUnfold(m);
    GapsUnfold(m);
  }

  lemma {:induction false} DecodeNoRun(e: nat)
    ensures Runs(Repeat(Empty, e)) == []
    ensures Gaps(Repeat(Empty, e)) == [e]
  {
    LeadBlankOfEmpties(e, []);
    assert Repeat(Empty, e) + [] == Repeat(Empty, e);
  }

  lemma {:induction false} IntoMaskStartsBlank(gaps: seq<nat>, runs: seq<nat>)
    requires |gaps| == |runs| + 1
    requires gaps[0] >= 1 || |runs| == 0
    ensures |IntoMask(gaps, runs)| == 0 || IntoMask(gaps, runs)[0] == Empty
  {
    if |runs| > 0 {
      assert IntoMask(gaps, runs)[0] == Repeat(Empty, gaps[0])[0];
    }
  }

  lemma {:induction false} InteriorGapsPositiveTail(gaps: seq<nat>)
    requires |gaps| > 0 && InteriorGapsPositive(gaps)
    ensures InteriorGapsPositive(gaps[1..])
  {
    forall j | 0 < j < |gaps[1..]| - 1
      ensures gaps[1..][j] >= 1
    {
      assert gaps[1..][j] == gaps[j + 1];
    }
  }

  lemma {:induction false} DecodeIntoMaskStep(gaps: seq<nat>, runs: seq<nat>)
    requires |gaps| == |runs| + 1 && |runs| > 0
    requires AllPositive(runs) && InteriorGapsPositive(gaps)
    ensures Runs(IntoMask(gaps, runs)) == [runs[0]] + Runs(IntoMask(gaps[1..], runs[1..]))
    ensures Gaps(IntoMask(gaps, runs)) == [gaps[0]] + Gaps(IntoMask(gaps[1..], runs[1..]))
  {
    var gs, rs := gaps[1..], runs[1..];
    assert gs[0] >= 1 || |rs| == 0 by {
      if |rs| > 0 {
        assert 0 < 1 < |gaps| - 1;
      }
    }
    IntoMaskStartsBlank(gs, rs);
    DecodeFirstRun(gaps[0], runs[0], IntoMask(gs, rs));
  }

  /** Decoding an encoded placement gives back its runs and its gaps, as
      long as the runs are positive and the interior gaps are not empty. */
  lemma {:induction false} DecodeIntoMask(gaps: seq<nat>, runs: seq<nat>)
    requires |gaps| == |runs| + 1
    requires AllPositive(runs) && InteriorGapsPositive(gaps)
    ensures Runs(IntoMask(gaps, runs)) == runs
    ensures Gaps(IntoMask(gaps, runs)) == gaps
    decreases |runs|
  {
    if |runs| == 0 {
      DecodeNoRun(gaps[0]);
      assert gaps == [gaps[0]];
    } else {
      DecodeIntoMaskStep(gaps, runs);
      InteriorGapsPositiveTail(gaps);
      DecodeIntoMask(gaps[1..], runs[1..]);
      assert runs == [runs[0]] + runs[1..];
      assert gaps == [gaps[0]] + gaps[1..];
    }
  }

  /** A determined mask with a Filled cell is its leading blanks, its first
      run, and a rest that does not start with a Filled cell. */
  lemma {:induction false} SplitAtFirstRun(m: Mask)
    requires Determined(m) && LeadBlank(m) < |m|
    ensures var e := LeadBlank(m); var f := LeadFilled(m[e..]); var rest := m[e + f..];
      && f > 0 && Determined(rest) && (|rest| == 0 || rest[0] != Filled)
      && m == Repeat(Empty, e) + Repeat(Filled, f) + rest
  {
    var e := LeadBlank(m);
    var f := LeadFilled(m[e..]);
    var rest := m[e + f..];
    LeadBlankStops(m);
    LeadFilledStops(m[e..]);
    assert m[..e] == Repeat(Empty, e);
    assert m[e..e + f] == Repeat(Filled, f);
    assert m == m[..e] + m[e..e + f] + rest;
  }

  /** After a run, the next gap is not empty unless it is the final one. */
  lemma {:induction false} GapAfterRun(rest: Mask)
    requires |rest| == 0 || rest[0] != Filled
    ensures |Gaps(rest)| == 1 || Gaps(rest)[0] >= 1
  {
  }

  lemma {:induction false} AllPositiveCons(f: nat, runs: seq<nat>)
    requires f > 0 && AllPositive(runs)
    ensures AllPositive([f] + runs)
  {
    assert forall j :: 0 < j < |runs| + 1 ==> ([f] + runs)[j] == runs[j - 1];
  }

  lemma {:induction false} InteriorGapsCons(e: nat, gaps: seq<nat>)
    requires InteriorGapsPositive(gaps) && |gaps| > 0 && (|gaps| == 1 || gaps[0] >= 1)
    ensures InteriorGapsPositive([e] + gaps)
  {
    assert forall j :: 0 < j < |gaps| + 1 ==> ([e] + gaps)[j] == gaps[j - 1];
  }

  /** Every determined mask is the encoding of its own gaps and runs, and
      those form a legal placement filling exactly the mask's length. */
  lemma {:induction false} IntoMaskOfDecode(m: Mask)
    requires Determined(m)
    ensures |Gaps(m)| == |Runs(m)| + 1
    ensures AllPositive(Runs(m)) && InteriorGapsPositive(Gaps(m))
    ensures Sum(Gaps(m)) + Sum(Runs(m)) == |m|
    ensures IntoMask(Gaps(m), Runs(m)) == m
    decreases |m|
  {
    var e := LeadBlank(m);
    if e == |m| {
      LeadBlankStops(m);
      assert m == Repeat(Empty, e);
      DecodeNoRun(e);
    } else {
      var f := LeadFilled(m[e..]);
      var rest := m[e + f..];
      SplitAtFirstRun(m);
      RunsUnfold(m);
      GapsUnfold(m);
      IntoMaskOfDecode(rest);
      GapAfterRun(rest);
      AllPositiveCons(f, Runs(rest));
      InteriorGapsCons(e, Gaps(rest));
    }
  }
}

=== FILE: parser.dfy ===
/** The line-driven reader of the nonogram-db puzzle format (`Parser` in
    src/parser.rs): header lines set dimensions or open a `columns` or
    `rows` section, and each line of a section is one comma-separated
    constraint. The input arrives here already split into lines. */
module Parsing {
  import opened Results
  import opened Grid
  import opened Builder
  import opened Text

  datatype ParserMode = Main | Cols | Rows

  /** `ParserError` without its `IOError` case: reading is not modelled. */
  datatype ParserError = InternalError | ParseIntError | BuilderError(err: Builder.BuilderError)

  /** The builder being filled, the number of lines read, and the section. */
  datatype Parser = Parser(builder: NonogramBuilder, line: nat, mode: ParserMode)

  /** `Parser::new`. */
  function Start(): (p: Parser)
    ensures p.mode == Main && p.line == 0 && p.builder == NewBuilder()
  {
    Parser(NewBuilder(), 0, Main)
  }

  /** Where `split_at(find(' ').unwrap_or(len))` cuts a header line. */
  function CommandEnd(line: string): (k: nat)
    ensures k <= |line| && ' ' !in line[..k]
    ensures k == |line| || line[k] == ' '
  {
    match FindSpace(line)
    case None => |line|
    case Some(i) => i
  }

  /** The command word: everything before the first space. */
  function Command(line: string): string {
    line[..CommandEnd(line)]
  }

  /** The arguments: everything from the first space on. */
  function Args(line: string): string {
    line[CommandEnd(line)..]
  }

  /** The builder keeps its constraints and any dimension already set. */
  predicate BuilderGrows(b: NonogramBuilder, c: NonogramBuilder) {
    && (b.width.Some? ==> c.width == b.width)
    && (b.height.Some? ==> c.height == b.height)
    && b.rows <= c.rows && b.cols <= c.cols
  }

  /** `parse_header_line`: `columns` and `rows` open a section, `width` and
      `height` hand their trimmed argument, parsed as a `usize`, to the
      builder; every other command, `goal` included, changes nothing. */
  function ParseHeaderLine(p: Parser, line: string): (r: Result<Parser, ParserError>)
    ensures r.Err? ==> r.error.ParseIntError? || r.error.BuilderError?
    ensures r.Ok? ==> r.value.line == p.line
    ensures r.Ok? ==> r.value.builder.rows == p.builder.rows && r.value.builder.cols == p.builder.cols
    ensures r.Ok? ==> BuilderGrows(p.builder, r.value.builder)
  {
    var command, args := Command(line), Args(line);
    if command == "columns" then Ok(p.(mode := Cols))
    else if command == "rows" then Ok(p.(mode := Rows))
    else if command == "height" then
      match ParseUsize(Trim(args))
      case None => Err(ParseIntError)
      case Some(h) =>
        match SetHeight(p.builder, h)
        case Err(e) => Err(BuilderError(e))
        case Ok(b) => Ok(p.(builder := b))
    else if command == "width" then
      match ParseUsize(Trim(args))
      case None => Err(ParseIntError)
      case Some(w) =>
        match SetWidth(p.builder, w)
        case Err(e) => Err(BuilderError(e))
        case Ok(b) => Ok(p.(builder := b))
    else Ok(p)
  }

  /** `split(",").map(str::trim).map(str::parse::<usize>)` collected into a
      `Result`: every piece must parse. */
  function ParseList(line: string): Option<seq<nat>> {
    Collect(PieceValues(Split(line, ',')))
  }

  /** Each piece, trimmed, read as a `usize`. */
  function PieceValues(pieces: seq<string>): (r: seq<Option<nat>>)
    ensures |r| == |pieces|
  {
    seq(|pieces|, i requires 0 <= i < |pieces| => ParseUsize(Trim(pieces[i])))
  }

  /** `collect::<Result<Vec<_>, _>>()`: the values when every piece parsed,
      nothing as soon as one did not. */
  function Collect(opts: seq<Option<nat>>): (r: Option<seq<nat>>)
    ensures r.Some? ==> |r.value| == |opts|
  {
    if |opts| == 0 then Some([])
    else
      match opts[0]
      case None => None
      case Some(v) =>
        match Collect(opts[1..])
        case None => None
        case Some(vs) => Some([v] + vs)
  }

  /** Collecting succeeds exactly when every piece parsed, and then keeps
      the values in order. */
  lemma {:induction false} CollectAll(opts: seq<Option<nat>>)
    ensures Collect(opts).Some? <==> forall i :: 0 <= i < |opts| ==> opts[i].Some?
    ensures Collect(opts).Some? ==> forall i :: 0 <= i < |opts| ==> Collect(opts).value[i] == opts[i].value
    decreases |opts|
  {
    if |opts| > 0 {
      var rest := opts[1..];
      CollectAll(rest);
      assert forall i :: 1 <= i < |opts| ==> opts[i] == rest[i - 1];
    }
  }

  /** `parse_constraint_line`: a blank line closes the section; a line of
      numbers is one more constraint of the open section; any other line
      closes the section and is read again, trimmed, as a header line. */
  function ParseConstraintLine(p: Parser, line: string): (r: Result<Parser, ParserError>)
    ensures AllWhitespace(line) ==> r == Ok(p.(mode := Main))
    ensures !AllWhitespace(line) && r.Ok? && r.value.mode == Main ==> ParseList(Trim(line)).None?
    ensures r.Ok? ==> r.value.line == p.line
    ensures r.Ok? ==> BuilderGrows(p.builder, r.value.builder)
    ensures r.Err? ==> (r.error.InternalError? <==> p.mode == Main && |Trim(line)| > 0 && ParseList(Trim(line)).Some?)
    ensures p.mode == Main && |Trim(line)| > 0 && ParseList(Trim(line)).Some? ==> r == Err(InternalError)
  {
    var t := Trim(line);
    TrimEmptyIffWhitespace(line);
    if |t| == 0 then Ok(p.(mode := Main))
    else
      match ParseList(t)
      case Some(vec) =>
        (match p.mode
         case Rows => Ok(p.(builder := PushRowConstraint(p.builder, vec)))
         case Cols => Ok(p.(builder := PushColConstraint(p.builder, vec)))
         case Main => Err(InternalError))
      case None => ParseHeaderLine(p.(mode := Main), t)
  }

  /** One line of the loop in `parse`: count it, then read it as the
      current mode says. */
  function ParseLine(p: Parser, line: string): (r: Result<Parser, ParserError>)
    ensures r.Ok? ==> r.value.line == p.line + 1 && BuilderGrows(p.builder, r.value.builder)
    ensures r.Err? ==> !r.error.InternalError?
  {
    var q := p.(line := p.line + 1);
    if q.mode == Main then ParseHeaderLine(q, line) else ParseConstraintLine(q, line)
  }

  /** The loop of `parse`: lines in order, stopping at the first error. */
  function ParseLines(p: Parser, lines: seq<string>): (r: Result<Parser, ParserError>)
    ensures r.Ok? ==> r.value.line == p.line + |lines|
    ensures r.Ok? ==> BuilderGrows(p.builder, r.value.builder)
    ensures r.Err? ==> !r.error.InternalError?
    decreases |lines|
  {
    if |lines| == 0 then Ok(p)
    else
      var next :- ParseLine(p, lines[0]);
      ParseLines(next, lines[1..])
  }

  /** `parse` after the read: run the loop from a fresh parser and build;
      it succeeds exactly when the builder it ends with validates. */
  function Parse(lines: seq<string>): (r: Result<Nonogram, ParserError>)
    ensures r.Ok? <==> ParseLines(Start(), lines).Ok? && Complete(ParseLines(Start(), lines).value.builder)
    ensures r.Ok? ==> var b := ParseLines(Start(), lines).value.builder;
      && r.value.Valid() && r.value.rows == b.rows && r.value.cols == b.cols
      && r.value.width == |b.cols| && r.value.height == |b.rows|
    ensures r.Err? && ParseLines(Start(), lines).Ok? ==> r.error == BuilderError(Invalid)
  {
    var p :- ParseLines(Start(), lines);
    match Build(p.builder)
    case Err(e) => Err(BuilderError(e))
    case Ok(n) => Ok(n)
  }

  lemma {:induction false} CommandOf(word: string, rest: string)
    requires ' ' !in word && (rest == [] || rest[0] == ' ')
    ensures Command(word + rest) == word && Args(word + rest) == rest
  {
    var line := word + rest;
    assert line[..|word|] == word;
    if rest != [] {
      assert line[|word|] == ' ';
    }
  }

  /** `columns` and `rows`, alone or followed by arguments, open the
      section of that name and change nothing else. */
  lemma {:induction false} HeaderOpensSection(p: Parser, rest: string)
    requires rest == [] || rest[0] == ' '
    ensures ParseHeaderLine(p, "columns" + rest) == Ok(p.(mode := Cols))
    ensures ParseHeaderLine(p, "rows" + rest) == Ok(p.(mode := Rows))
  {
    CommandOf("columns", rest);
    CommandOf("rows", rest);
  }

  /** Decimal text is its own trim, and so is the text after one space. */
  lemma {:induction false} TrimDigits(n: nat)
    ensures Trim(" " + NatToString(n)) == NatToString(n)
  {
    var digits := NatToString(n);
    assert !IsWhitespace(digits[0]) && !IsWhitespace(digits[|digits| - 1]);
    TrimPadding(" ", digits, []);
    assert " " + digits + [] == " " + digits;
  }

  /** The argument of `word N`, trimmed, is the decimal text of N. */
  lemma {:induction false} DimensionArgument(word: string, n: nat)
    requires ' ' !in word
    ensures Command(word + " " + NatToString(n)) == word
    ensures Trim(Args(word + " " + NatToString(n))) == NatToString(n)
  {
    var digits := NatToString(n);
    assert word + " " + digits == word + (" " + digits);
    CommandOf(word, " " + digits);
    TrimDigits(n);
  }

  /** A `width` command whose argument reads as N sets the width to N,
      unless it is already set. */
  lemma {:induction false} WidthCommand(p: Parser, line: string, n: nat)
    requires Command(line) == "width" && ParseUsize(Trim(Args(line))) == Some(n)
    ensures ParseHeaderLine(p, line) ==
      if p.builder.width.Some? then Err(BuilderError(WidthAlreadySet))
      else Ok(p.(builder := p.builder.(width := Some(n))))
  {
    assert "width" != "columns" && "width" != "rows" && "width" != "height";
  }

  /** A `height` command whose argument reads as N sets the height to N,
      unless it is already set. */
  lemma {:induction false} HeightCommand(p: Parser, line: string, n: nat)
    requires Command(line) == "height" && ParseUsize(Trim(Args(line))) == Some(n)
    ensures ParseHeaderLine(p, line) ==
      if p.builder.height.Some? then Err(BuilderError(HeightAlreadySet))
      else Ok(p.(builder := p.builder.(height := Some(n))))
  {
    assert "height" != "columns" && "height" != "rows";
  }

  /** `width N` hands N to the builder: the first time it is recorded, a
      second time is the builder's error. */
  lemma {:induction false} HeaderSetsWidth(p: Parser, n: nat)
    requires n <= UsizeMax
    ensures ParseHeaderLine(p, "width " + NatToString(n)) ==
      if p.builder.width.Some? then Err(BuilderError(WidthAlreadySet))
      else Ok(p.(builder := p.builder.(width := Some(n))))
  {
    assert "width " == "width" + " ";
    DimensionArgument("width", n);
    ParseNatToString(n);
    WidthCommand(p, "width " + NatToString(n), n);
  }

  /** `height N` hands N to the builder: the first time it is recorded, a
      second time is the builder's error. */
  lemma {:induction false} HeaderSetsHeight(p: Parser, n: nat)
    requires n <= UsizeMax
    ensures ParseHeaderLine(p, "height " + NatToString(n)) ==
      if p.builder.height.Some? then Err(BuilderError(HeightAlreadySet))
      else Ok(p.(builder := p.builder.(height := Some(n))))
  {
    assert "height " == "height" + " ";
    DimensionArgument("height", n);
    ParseNatToString(n);
    HeightCommand(p, "height " + NatToString(n), n);
  }

  /** A dimension command without a number is a parse error. */
  lemma {:induction false} HeaderNeedsNumber(p: Parser)
    ensures ParseHeaderLine(p, "width") == Err(ParseIntError)
    ensures ParseHeaderLine(p, "height") == Err(ParseIntError)
  {
    CommandOf("width", []);
    CommandOf("height", []);
    assert "width" + [] == "width" && "height" + [] == "height";
    AllWhitespaceTrimsToEmpty([]);
  }

  /** Any other command, `goal` included, leaves the parser as it was. */
  lemma {:induction false} HeaderIgnoresOtherCommands(p: Parser, line: string)
    requires Command(line) !in ["columns", "rows", "height", "width"]
    ensures ParseHeaderLine(p, line) == Ok(p)
  {
  }

  /** The constraint text of a non-empty list: decimal numbers joined by commas. */
  function FormatConstraint(vals: seq<nat>): (s: string)
    requires |vals| >= 1
    ensures |s| > 0 && IsDigit(s[0]) && IsDigit(s[|s| - 1])
  {
    var pieces := seq(|vals|, i requires 0 <= i < |vals| => NatToString(vals[i]));
    JoinEnds(pieces, ',');
    Join(pieces, ',')
  }

  lemma {:induction false} JoinEnds(pieces: seq<string>, sep: char)
    requires |pieces| >= 1
    requires forall i :: 0 <= i < |pieces| ==> |pieces[i]| > 0 && AllDigits(pieces[i])
    ensures |Join(pieces, sep)| > 0
    ensures IsDigit(Join(pieces, sep)[0]) && IsDigit(Join(pieces, sep)[|Join(pieces, sep)| - 1])
    decreases |pieces|
  {
    if |pieces| > 1 {
      JoinEnds(pieces[1..], sep);
    }
  }

  /** Reading a formatted constraint gives back the numbers. */
  lemma {:induction false} ParseListOfFormatted(vals: seq<nat>)
    requires |vals| >= 1 && forall i :: 0 <= i < |vals| ==> vals[i] <= UsizeMax
    ensures ParseList(FormatConstraint(vals)) == Some(vals)
  {
    var pieces := seq(|vals|, i requires 0 <= i < |vals| => NatToString(vals[i]));
    forall i | 0 <= i < |pieces|
      ensures ',' !in pieces[i]
      ensures ParseUsize(Trim(pieces[i])) == Some(vals[i])
    {
      var d := pieces[i];
      assert AllDigits(d);
      TrimPadding([], d, []);
      assert [] + d + [] == d;
      ParseNatToString(vals[i]);
    }
    SplitJoin(pieces, ',');
    var opts := PieceValues(pieces);
    assert forall i :: 0 <= i < |opts| ==> opts[i] == Some(vals[i]);
    CollectAll(opts);
    var r := ParseList(FormatConstraint(vals));
    assert r.value == vals;
  }

  /** In a section, a formatted constraint, with any whitespace around it,
      appends exactly that constraint to the section's list; the other list,
      the dimensions and the mode are unchanged. */
  lemma {:induction false} ConstraintLinePushes(p: Parser, vals: seq<nat>, pre: string, post: string)
    requires p.mode != Main
    requires |vals| >= 1 && forall i :: 0 <= i < |vals| ==> vals[i] <= UsizeMax
    requires AllWhitespace(pre) && AllWhitespace(post)
    ensures ParseConstraintLine(p, pre + FormatConstraint(vals) + post) ==
      if p.mode == Rows then Ok(p.(builder := p.builder.(rows := p.builder.rows + [vals])))
      else Ok(p.(builder := p.builder.(cols := p.builder.cols + [vals])))
  {
    var f := FormatConstraint(vals);
    TrimPadding(pre, f, post);
    ParseListOfFormatted(vals);
  }

  /** A piece as a person types it: whitespace, a run of digits (leading
      zeros allowed), whitespace. */
  predicate PaddedNumber(piece: string, lead: string, digits: string, trail: string) {
    && piece == lead + digits + trail
    && AllWhitespace(lead) && AllWhitespace(trail)
    && |digits| > 0 && AllDigits(digits)
  }

  /** Each piece is trimmed before it is read, so whitespace around the
      commas is ignored, and leading zeros do not change a number. */
  lemma {:induction false} ParseListOfPadded(pieces: seq<string>, lead: seq<string>, digits: seq<string>,
                                             trail: seq<string>, vals: seq<nat>)
    requires |pieces| >= 1 && |lead| == |digits| == |trail| == |vals| == |pieces|
    requires forall i :: 0 <= i < |pieces| ==>
      PaddedNumber(pieces[i], lead[i], digits[i], trail[i]) && DigitsValue(digits[i]) == vals[i] <= UsizeMax
    ensures ParseList(Join(pieces, ',')) == Some(vals)
  {
    forall i | 0 <= i < |pieces|
      ensures ',' !in pieces[i]
      ensures ParseUsize(Trim(pieces[i])) == Some(vals[i])
    {
      var d := digits[i];
      assert forall k :: 0 <= k < |pieces[i]| ==> IsWhitespace(pieces[i][k]) || IsDigit(pieces[i][k]);
      TrimPadding(lead[i], d, trail[i]);
      assert DigitPart(d) == d;
    }
    SplitJoin(pieces, ',');
    var opts := PieceValues(pieces);
    assert forall i :: 0 <= i < |opts| ==> opts[i] == Some(vals[i]);
    CollectAll(opts);
    var r := ParseList(Join(pieces, ','));
    assert r.value == vals;
  }

  /** In a section, a line of padded numbers (`01, 3`) appends their values
      to the section's list, as the formatted line would. The first piece
      starts and the last piece ends with a digit; the whitespace beyond
      them belongs to the line. */
  lemma {:induction false} PaddedLinePushes(p: Parser, pieces: seq<string>, lead: seq<string>, digits: seq<string>,
                                            trail: seq<string>, vals: seq<nat>, pre: string, post: string)
    requires p.mode != Main
    requires |pieces| >= 1 && |lead| == |digits| == |trail| == |vals| == |pieces|
    requires forall i :: 0 <= i < |pieces| ==>
      PaddedNumber(pieces[i], lead[i], digits[i], trail[i]) && DigitsValue(digits[i]) == vals[i] <= UsizeMax
    requires |lead[0]| == 0 && |trail[|pieces| - 1]| == 0
    requires AllWhitespace(pre) && AllWhitespace(post)
    ensures ParseConstraintLine(p, pre + Join(pieces, ',') + post) ==
      if p.mode == Rows then Ok(p.(builder := p.builder.(rows := p.builder.rows + [vals])))
      else Ok(p.(builder := p.builder.(cols := p.builder.cols + [vals])))
  {
    var n := |pieces| - 1;
    assert pieces[0] == digits[0] + trail[0];
    assert pieces[n] == lead[n] + digits[n];
    JoinCons(pieces, ',');
    JoinLast(pieces, ',');
    TrimPadding(pre, Join(pieces, ','), post);
    ParseListOfPadded(pieces, lead, digits, trail, vals);
  }

  lemma {:induction false} FirstPieceIsPrefix(t: string, sep: char)
    ensures var first := Split(t, sep)[0]; |first| <= |t| && first == t[..|first|]
  {
    var pieces := Split(t, sep);
    if |pieces| > 1 {
      assert t == pieces[0] + [sep] + Join(pieces[1..], sep);
    }
  }

  lemma {:induction false} TrimKeepsFirst(s: string)
    requires |s| > 0 && !IsWhitespace(s[0])
    ensures |Trim(s)| > 0 && Trim(s)[0] == s[0]
  {
    LeadingWhitespaceIs(s, 0);
  }

  /** A trimmed line whose first character is neither a digit nor `+`
      is not a list of numbers: its first piece already fails to parse. */
  lemma {:induction false} ListRejectsNonNumber(t: string)
    requires |t| > 0 && !IsWhitespace(t[0]) && !IsDigit(t[0]) && t[0] != '+'
    ensures ParseList(t).None?
  {
    var first := Split(t, ',')[0];
    FirstPieceIsPrefix(t, ',');
    if |first| == 0 {
      AllWhitespaceTrimsToEmpty(first);
    } else {
      assert first[0] == t[0];
      TrimKeepsFirst(first);
      ParseRejectsNonDigits(Trim(first));
    }
  }

  /** In a section, a line that does not start with a number is not a
      constraint: the section ends and the trimmed line is read as a header
      line, since a blank line need not precede the next header. */
  lemma {:induction false} ConstraintModeFallsBackToHeader(p: Parser, line: string)
    requires p.mode != Main
    requires var t := Trim(line); |t| > 0 && !IsDigit(t[0]) && t[0] != '+'
    ensures ParseConstraintLine(p, line) == ParseHeaderLine(p.(mode := Main), Trim(line))
  {
    ListRejectsNonNumber(Trim(line));
  }

  /** A header line closes a section without a blank line before it. */
  lemma {:induction false} SectionEndsAtNextHeader(p: Parser)
    requires p.mode != Main
    ensures ParseConstraintLine(p, "columns") == Ok(p.(mode := Cols))
    ensures ParseConstraintLine(p, "rows") == Ok(p.(mode := Rows))
  {
    TrimPadding([], "columns", []);
    TrimPadding([], "rows", []);
    assert [] + "columns" + [] == "columns" && [] + "rows" + [] == "rows";
    ConstraintModeFallsBackToHeader(p, "columns");
    ConstraintModeFallsBackToHeader(p, "rows");
    HeaderOpensSection(p.(mode := Main), []);
    assert "columns" + [] == "columns" && "rows" + [] == "rows";
  }

  /** Reading two blocks of lines is reading the first, then the second
      from where the first left off. */
  lemma {:induction false} ParseLinesAppend(p: Parser, a: seq<string>, b: seq<string>)
    ensures ParseLines(p, a + b) ==
      match ParseLines(p, a)
      case Err(e) => Err(e)
      case Ok(q) => ParseLines(q, b)
    decreases |a|
  {
    if |a| == 0 {
      assert a + b == b;
    } else {
      assert (a + b)[0] == a[0] && (a + b)[1..] == a[1..] + b;
      match ParseLine(p, a[0])
      case Err(_) =>
      case Ok(next) => ParseLinesAppend(next, a[1..], b);
    }
  }

  /** `unquote` as written: strip one `"` from each end when the text
      starts and ends with one. On the one-character text `"` both tests
      succeed and the slice `1..0` panics, modelled as `None`. */
  function UnquoteAsWritten(s: string): (r: Option<string>)
    ensures r.None? <==> s == "\""
  {
    if |s| > 0 && s[0] == '"' && s[|s| - 1] == '"' then
      if 1 <= |s| - 1 then Some(s[1..|s| - 1]) else None
    else Some(s)
  }

  /** The lone quote is the input that makes `unquote` panic. */
  lemma {:induction false} UnquoteLoneQuotePanics()
    ensures UnquoteAsWritten("\"").None?
  {
  }

  /** `unquote` as intended: a text needs two quotes to be quoted. */
  function Unquote(s: string): (r: string)
    ensures |r| <= |s|
    ensures (|s| >= 2 && s[0] == '"' && s[|s| - 1] == '"') <==> |r| + 2 == |s|
  {
    if |s| >= 2 && s[0] == '"' && s[|s| - 1] == '"' then s[1..|s| - 1] else s
  }

  /** Unquoting a quoted text gives the text back, whatever it holds. */
  lemma {:induction false} UnquoteQuote(t: string)
    ensures Unquote("\"" + t + "\"") == t
  {
    var q := "\"" + t + "\"";
    assert q[1..|q| - 1] == t;
  }

  /** A text that does not both start and end with a quote is left alone. */
  lemma {:induction false} UnquoteUnquoted(s: string)
    requires |s| == 0 || s[0] != '"' || s[|s| - 1] != '"'
    ensures Unquote(s) == s
  {
  }

  /** Away from the lone quote, the intended `unquote` is the one written. */
  lemma {:induction false} UnquoteAgreesAsWritten(s: string)
    requires s != "\""
    ensures UnquoteAsWritten(s) == Some(Unquote(s))
  {
  }
}

=== FILE: reduction.dfy ===
/** Line reduction (src/solver.rs): the consensus of a candidate set
    (`find_consensus`), the compatibility of a candidate with the grid's
    knowledge of its line (`can_place`), and the candidate filter
    (`Vec::retain` with `can_place`). */
module Reduction {
  import opened Cells
  import opened Seqs
  import opened Masks

  type MaskSet = seq<Mask>

  /** `a.iter().zip(b).map(consensus_eq).collect()`: zip stops at the
      shorter of the two masks. */
  function ZipConsensus(a: Mask, b: Mask): (r: Mask)
    ensures |r| == Min(|a|, |b|)
    ensures forall i :: 0 <= i < |r| ==> r[i] == ConsensusEq(a[i], b[i])
  {
    if |a| == 0 || |b| == 0 then [] else [ConsensusEq(a[0], b[0])] + ZipConsensus(a[1..], b[1..])
  }

  /** The fold of `find_consensus` after its first mask: at each position
      the result keeps the accumulator's cell when every remaining mask
      agrees with it there, and is Undecided otherwise. */
  function FoldConsensus(acc: Mask, rest: MaskSet): (r: Mask)
    ensures |r| <= |acc|
    ensures forall j :: 0 <= j < |rest| ==> |r| <= |rest[j]|
    ensures (forall j :: 0 <= j < |rest| ==> |rest[j]| == |acc|) ==> |r| == |acc|
    ensures forall i :: 0 <= i < |r| ==>
      r[i] == if (forall j :: 0 <= j < |rest| ==> rest[j][i] == acc[i]) then acc[i] else Undecided
    decreases |rest|
  {
    if |rest| == 0 then acc
    else
      var r := FoldConsensus(ZipConsensus(acc, rest[0]), rest[1..]);
      FoldConsensusStep(acc, rest, r);
      r
  }

  lemma {:induction false} FoldConsensusStep(acc: Mask, rest: MaskSet, r: Mask)
    requires |rest| > 0
    requires forall j :: 0 <= j < |rest[1..]| ==> |r| <= |rest[1..][j]|
    requires var z := ZipConsensus(acc, rest[0]);
      && |r| <= |z|
      && forall i :: 0 <= i < |r| ==>
           r[i] == if (forall j :: 0 <= j < |rest[1..]| ==> rest[1..][j][i] == z[i]) then z[i] else Undecided
    ensures forall j :: 0 <= j < |rest| ==> |r| <= |rest[j]|
    ensures forall i :: 0 <= i < |r| ==>
      r[i] == if (forall j :: 0 <= j < |rest| ==> rest[j][i] == acc[i]) then acc[i] else Undecided
  {
    var z := ZipConsensus(acc, rest[0]);
    forall j | 0 <= j < |rest|
      ensures |r| <= |rest[j]|
    {
      if j > 0 {
        assert rest[j] == rest[1..][j - 1];
      }
    }
    forall i | 0 <= i < |r|
      ensures r[i] == if (forall j :: 0 <= j < |rest| ==> rest[j][i] == acc[i]) then acc[i] else Undecided
    {
      if forall j :: 0 <= j < |rest| ==> rest[j][i] == acc[i] {
        assert z[i] == acc[i];
        forall j | 0 <= j < |rest[1..]|
          ensures rest[1..][j][i] == z[i]
        {
          assert rest[1..][j] == rest[j + 1];
        }
      } else {
        var j :| 0 <= j < |rest| && rest[j][i] != acc[i];
        if j == 0 {
          assert z[i] == Undecided;
        } else if rest[0][i] == acc[i] {
          assert z[i] == acc[i];
          assert rest[1..][j - 1][i] != z[i];
        } else {
          assert z[i] == Undecided;
        }
      }
    }
  }

  /** `find_consensus`: the source reads `cands[0]`, so the set may not be
      empty. At every position the result is the value all candidates share
      there, or Undecided when they disagree. */
  function FindConsensus(cands: MaskSet): (r: Mask)
    requires |cands| > 0
    ensures forall j :: 0 <= j < |cands| ==> |r| <= |cands[j]|
    ensures (forall j :: 0 <= j < |cands| ==> |cands[j]| == |cands[0]|) ==> |r| == |cands[0]|
    ensures forall i :: 0 <= i < |r| ==>
      r[i] == if (forall j :: 0 <= j < |cands| ==> cands[j][i] == cands[0][i]) then cands[0][i] else Undecided
  {
    var r := FoldConsensus(cands[0], cands[1..]);
    assert forall j :: 0 < j < |cands| ==> cands[j] == cands[1..][j - 1];
    r
  }

  /** `can_place`: the grid's line accepts the candidate at every position
      both have (zip stops at the shorter). */
  function CanPlace(grid: Mask, cand: Mask): (r: bool)
    ensures r <==> forall i :: 0 <= i < Min(|grid|, |cand|) ==> Accepts(grid[i], cand[i])
  {
    if |grid| == 0 || |cand| == 0 then true
    else Accepts(grid[0], cand[0]) && CanPlace(grid[1..], cand[1..])
  }

  /** `cands.retain(|cand| can_place(grid, cand))`. */
  function Retain(cands: MaskSet, grid: Mask): (r: MaskSet)
    ensures IsSubsequence(r, cands)
    ensures forall m :: m in r ==> m in cands && CanPlace(grid, m)
    ensures forall m :: m in cands && CanPlace(grid, m) ==> m in r
    ensures forall m :: multiset(r)[m] == if CanPlace(grid, m) then multiset(cands)[m] else 0
  {
    if |cands| == 0 then []
    else
      var tail := Retain(cands[1..], grid);
      assert forall m :: m in cands ==> m == cands[0] || m in cands[1..];
      assert cands == [cands[0]] + cands[1..];
      if CanPlace(grid, cands[0]) then [cands[0]] + tail else tail
  }

  /** A line that rules out none of the candidates keeps the set as it is,
      order included. */
  lemma {:induction false} RetainKeepsAll(cands: MaskSet, grid: Mask)
    requires forall m :: m in cands ==> CanPlace(grid, m)
    ensures Retain(cands, grid) == cands
    decreases |cands|
  {
    if |cands| > 0 {
      assert forall m :: m in cands[1..] ==> m in cands;
      RetainKeepsAll(cands[1..], grid);
      assert cands == [cands[0]] + cands[1..];
    }
  }

  /** The consensus of a set accepts every member of the set: writing it
      into the grid never rules out a candidate it was computed from. */
  lemma {:induction false} ConsensusAcceptsMembers(cands: MaskSet)
    requires |cands| > 0
    ensures forall m :: m in cands ==> CanPlace(FindConsensus(cands), m)
  {
    var r := FindConsensus(cands);
    forall m | m in cands
      ensures CanPlace(r, m)
    {
      forall i | 0 <= i < Min(|r|, |m|)
        ensures Accepts(r[i], m[i])
      {
      }
    }
  }

  /** The consensus does not depend on the order or multiplicity of the
      masks: two sets with the same members have the same consensus. */
  lemma {:induction false} ConsensusIgnoresOrder(s: MaskSet, t: MaskSet, n: nat)
    requires |s| > 0 && |t| > 0
    requires forall m :: m in s <==> m in t
    requires forall m :: m in s ==> |m| == n
    ensures FindConsensus(s) == FindConsensus(t)
  {
    var a, b := FindConsensus(s), FindConsensus(t);
    assert s[0] in t && t[0] in s;
    assert forall j :: 0 <= j < |s| ==> s[j] in t;
    assert forall j :: 0 <= j < |t| ==> t[j] in s;
    forall i | 0 <= i < n
      ensures a[i] == b[i]
    {
      var sAgree := forall j :: 0 <= j < |s| ==> s[j][i] == s[0][i];
      var tAgree := forall j :: 0 <= j < |t| ==> t[j][i] == t[0][i];
      if sAgree {
        assert t[0][i] == s[0][i];
        assert tAgree;
      }
    }
  }

  /** The more the grid knows about a line, the fewer candidates survive:
      filtering against a refined line keeps a subsequence of what
      filtering against the coarser line keeps. */
  lemma {:induction false} RetainMonotone(cands: MaskSet, coarse: Mask, fine: Mask)
    requires |coarse| == |fine|
    requires forall i :: 0 <= i < |fine| ==> Accepts(coarse[i], fine[i])
    ensures IsSubsequence(Retain(cands, fine), Retain(cands, coarse))
    decreases |cands|
  {
    if |cands| > 0 {
      RetainMonotone(cands[1..], coarse, fine);
      var m := cands[0];
      if CanPlace(fine, m) {
        assert CanPlace(coarse, m) by {
          forall i | 0 <= i < Min(|coarse|, |m|)
            ensures Accepts(coarse[i], m[i])
          {
            assert Accepts(fine[i], m[i]);
          }
        }
      }
    }
  }
}

=== FILE: results.dfy ===
/** Failure-compatible wrappers standing in for Rust's `Option` and `Result`. */
module Results {

  datatype Option<+T> = None | Some(value: T)

  datatype Result<+T, +E> = Ok(value: T) | Err(error: E) {

    predicate IsFailure() {
      Err?
    }

    function PropagateFailure<U>(): Result<U, E>
      requires Err?
    {
      Err(error)
    }

    function Extract(): T
      requires Ok?
    {
      value
    }
  }
}

=== FILE: seqs.dfy ===
/** Sequence helpers shared by the rest of the model. */
module Seqs {

  /** `vec![v; n]`. */
  function Repeat<T>(v: T, n: nat): (r: seq<T>)
    ensures |r| == n
    ensures forall i :: 0 <= i < n ==> r[i] == v
  {
    if n == 0 then [] else [v] + Repeat(v, n - 1)
  }

  function Sum(s: seq<nat>): nat
  {
    if |s| == 0 then 0 else s[0] + Sum(s[1..])
  }

  function Min(a: nat, b: nat): nat
  {
    if a <= b then a else b
  }

  lemma {:induction false} SumAppend(a: seq<nat>, b: seq<nat>)
    ensures Sum(a + b) == Sum(a) + Sum(b)
  {
    if |a| == 0 {
      assert a + b == b;
    } else {
      assert (a + b)[1..] == a[1..] + b;
      SumAppend(a[1..], b);
    }
  }

  lemma {:induction false} RepeatAppend<T>(v: T, m: nat, n: nat)
    ensures Repeat(v, m) + Repeat(v, n) == Repeat(v, m + n)
  {
  }

  /** No value occurs twice. */
  predicate NoDuplicates<T(==)>(s: seq<T>) {
    forall i, j :: 0 <= i < j < |s| ==> s[i] != s[j]
  }

  lemma {:induction false} NoDuplicatesAppend<T>(a: seq<T>, b: seq<T>)
    requires NoDuplicates(a) && NoDuplicates(b)
    requires forall x :: x in a ==> x !in b
    ensures NoDuplicates(a + b)
  {
    forall i, j | 0 <= i < j < |a + b|
      ensures (a + b)[i] != (a + b)[j]
    {
      if j < |a| {
      } else if i >= |a| {
        assert (a + b)[i] == b[i - |a|] && (a + b)[j] == b[j - |a|];
      } else {
        assert (a + b)[i] in a;
        assert (a + b)[j] in b;
      }
    }
  }

  /** `sub` is obtained from `s` by deleting elements, as `Vec::retain` does. */
  predicate IsSubsequence<T(==)>(sub: seq<T>, s: seq<T>)
    decreases |s|
  {
    || |sub| == 0
    || (|s| > 0 && ((sub[0] == s[0] && IsSubsequence(sub[1..], s[1..])) || IsSubsequence(sub, s[1..])))
  }

  lemma {:induction false} SubsequenceContained<T>(sub: seq<T>, s: seq<T>)
    requires IsSubsequence(sub, s)
    ensures forall x :: x in sub ==> x in s
    ensures |sub| <= |s|
    decreases |s|
  {
    if |sub| == 0 {
    } else if sub[0] == s[0] && IsSubsequence(sub[1..], s[1..]) {
      SubsequenceContained(sub[1..], s[1..]);
      assert sub == [sub[0]] + sub[1..];
      assert s == [s[0]] + s[1..];
    } else {
      SubsequenceContained(sub, s[1..]);
      assert s == [s[0]] + s[1..];
    }
  }

  lemma {:induction false} SubsequenceReflexive<T>(s: seq<T>)
    ensures IsSubsequence(s, s)
    decreases |s|
  {
    if |s| > 0 {
      SubsequenceReflexive(s[1..]);
    }
  }

  lemma {:induction false} SubsequenceTransitive<T>(a: seq<T>, b: seq<T>, c: seq<T>)
    requires IsSubsequence(a, b) && IsSubsequence(b, c)
    ensures IsSubsequence(a, c)
    decreases |c|
  {
    if |a| == 0 {
    } else if b[0] == c[0] && IsSubsequence(b[1..], c[1..]) {
      if a[0] == b[0] && IsSubsequence(a[1..], b[1..]) {
        SubsequenceTransitive(a[1..], b[1..], c[1..]);
      } else {
        SubsequenceTransitive(a, b[1..], c[1..]);
      }
    } else {
      SubsequenceTransitive(a, b, c[1..]);
    }
  }
}

=== FILE: solver.dfy ===
/** The propagation engine (`Solver` in src/solver.rs): one candidate set
    per row and per column, a consensus step that writes what every
    candidate of a line agrees on into the grid, a filter step that drops
    the candidates the grid rules out, and the `solve` loop. */
module Solving {
  import opened Cells
  import opened Results
  import opened Seqs
  import opened Masks
  import opened Grid
  import opened Generation
  import opened Reduction

  datatype Solver = Solver(rows: seq<MaskSet>, cols: seq<MaskSet>, nono: Nonogram)

  /** The source panics in `find_consensus` (it reads `cands[0]`) when a
      line has no candidate left; the model names the line instead. */
  datatype Fault = EmptyRowCandidates(y: nat) | EmptyColumnCandidates(x: nat)

  /** How a fuelled run of `solve` ends. */
  datatype Outcome = Finished(solver: Solver) | Panicked(fault: Fault) | OutOfFuel(solver: Solver)

  /** Every constraint's filled cells fit in a line of `capacity` cells. */
  predicate Fits(cs: seq<Constraint>, capacity: nat) {
    forall i :: 0 <= i < |cs| ==> Sum(cs[i]) <= capacity
  }

  /** Every mask of every set has length `len`. */
  predicate SetsHaveLength(sets: seq<MaskSet>, len: nat) {
    forall i, j :: 0 <= i < |sets| && 0 <= j < |sets[i]| ==> |sets[i][j]| == len
  }

  /** The shape a solver built from a validated nonogram has and keeps. */
  predicate Inv(s: Solver) {
    && s.nono.Valid()
    && |s.rows| == s.nono.height && |s.cols| == s.nono.width
    && SetsHaveLength(s.rows, s.nono.width) && SetsHaveLength(s.cols, s.nono.height)
  }

  /** Same puzzle and dimensions; only the cells may differ. */
  predicate SamePuzzle(a: Nonogram, b: Nonogram) {
    && a.width == b.width && a.height == b.height
    && a.rows == b.rows && a.cols == b.cols
    && a.Valid() && b.Valid()
  }

  /** `Solver::new`: the full candidate set of every row (of the grid's
      width) and every column (of its height). */
  function New(n: Nonogram): (s: Solver)
    requires Fits(n.rows, n.width) && Fits(n.cols, n.height)
    ensures s.nono == n
    ensures |s.rows| == |n.rows| && |s.cols| == |n.cols|
    ensures SetsHaveLength(s.rows, n.width) && SetsHaveLength(s.cols, n.height)
    ensures forall y, j :: 0 <= y < |s.rows| && 0 <= j < |s.rows[y]| ==> Determined(s.rows[y][j])
    ensures forall x, j :: 0 <= x < |s.cols| && 0 <= j < |s.cols[x]| ==> Determined(s.cols[x][j])
  {
    var rows := seq(|n.rows|, y requires 0 <= y < |n.rows| => Candidates(n.rows[y], n.width));
    var cols := seq(|n.cols|, x requires 0 <= x < |n.cols| => Candidates(n.cols[x], n.height));
    assert forall y, j :: 0 <= y < |rows| && 0 <= j < |rows[y]| ==> rows[y][j] in rows[y];
    assert forall x, j :: 0 <= x < |cols| && 0 <= j < |cols[x]| ==> cols[x][j] in cols[x];
    Solver(rows, cols, n)
  }

  /** A solver built from a validated nonogram satisfies the invariant. */
  lemma {:induction false} NewSatisfiesInv(n: Nonogram)
    requires Fits(n.rows, n.width) && Fits(n.cols, n.height)
    requires n.Valid() && |n.rows| == n.height && |n.cols| == n.width
    ensures Inv(New(n))
  {
  }

  /** With well-formed clues, the set a new solver holds for a row is
      exactly the set of decided masks of the row's width whose runs are
      the ones the row's clue asks for, and likewise for columns. */
  lemma {:induction false} NewHoldsEveryPlacement(n: Nonogram)
    requires Fits(n.rows, n.width) && Fits(n.cols, n.height)
    requires forall y :: 0 <= y < |n.rows| ==> WellFormedClue(n.rows[y])
    requires forall x :: 0 <= x < |n.cols| ==> WellFormedClue(n.cols[x])
    ensures forall y, m :: 0 <= y < |n.rows| ==>
      (m in New(n).rows[y] <==> |m| == n.width && Determined(m) && Runs(m) == ClueRuns(n.rows[y]))
    ensures forall x, m :: 0 <= x < |n.cols| ==>
      (m in New(n).cols[x] <==> |m| == n.height && Determined(m) && Runs(m) == ClueRuns(n.cols[x]))
  {
    forall y | 0 <= y < |n.rows|
      ensures forall m :: m in New(n).rows[y] <==> |m| == n.width && Determined(m) && Runs(m) == ClueRuns(n.rows[y])
    {
      CandidatesAreClueRuns(n.rows[y], n.width);
    }
    forall x | 0 <= x < |n.cols|
      ensures forall m :: m in New(n).cols[x] <==> |m| == n.height && Determined(m) && Runs(m) == ClueRuns(n.cols[x])
    {
      CandidatesAreClueRuns(n.cols[x], n.height);
    }
  }

  /** The unchecked write of the consensus step: a decided consensus cell
      replaces whatever the grid held, an Undecided one leaves it. */
  function Overwrite(cell: CellState, consensus: CellState): CellState {
    if consensus != Undecided then consensus else cell
  }

  /** The inner loop of the row half of `consensus_step`: write the decided
      cells of `cons`, from position `x` on, into row `y`. */
  function PaintRow(n: Nonogram, y: nat, cons: Mask, x: nat): (r: Nonogram)
    requires n.Valid() && y < n.height && |cons| <= n.width && x <= |cons|
    ensures SamePuzzle(r, n)
    ensures forall x': nat, y': nat :: x' < n.width && y' < n.height ==>
      Get(r, x', y') == if y' == y && x <= x' < |cons| then Overwrite(Get(n, x', y'), cons[x']) else Get(n, x', y')
    decreases |cons| - x
  {
    if x == |cons| then n
    else
      var next := if cons[x] != Undecided then Set(n, x, y, cons[x]) else n;
      SetChangesOnlyThatCell(n, x, y, cons[x]);
      PaintRow(next, y, cons, x + 1)
  }

  /** The inner loop of the column half: write the decided cells of `cons`,
      from position `y` on, into column `x`. */
  function PaintColumn(n: Nonogram, x: nat, cons: Mask, y: nat): (r: Nonogram)
    requires n.Valid() && x < n.width && |cons| <= n.height && y <= |cons|
    ensures SamePuzzle(r, n)
    ensures forall x': nat, y': nat :: x' < n.width && y' < n.height ==>
      Get(r, x', y') == if x' == x && y <= y' < |cons| then Overwrite(Get(n, x', y'), cons[y']) else Get(n, x', y')
    decreases |cons| - y
  {
    if y == |cons| then n
    else
      var next := if cons[y] != Undecided then Set(n, x, y, cons[y]) else n;
      SetChangesOnlyThatCell(n, x, y, cons[y]);
      PaintColumn(next, x, cons, y + 1)
  }

  /** The row half of `consensus_step`, from row `y` on. */
  function PaintRows(n: Nonogram, rows: seq<MaskSet>, y: nat): (r: Result<Nonogram, Fault>)
    requires n.Valid() && |rows| == n.height && SetsHaveLength(rows, n.width) && y <= |rows|
    ensures r.Ok? <==> forall y' :: y <= y' < |rows| ==> |rows[y']| > 0
    ensures r.Err? ==> r.error.EmptyRowCandidates? && y <= r.error.y < |rows| && |rows[r.error.y]| == 0
    ensures r.Ok? ==> SamePuzzle(r.value, n)
    ensures r.Ok? ==> forall y' :: y <= y' < n.height ==> |FindConsensus(rows[y'])| == n.width
    ensures r.Ok? ==> forall x': nat, y': nat :: x' < n.width && y <= y' < n.height ==>
      Get(r.value, x', y') == Overwrite(Get(n, x', y'), FindConsensus(rows[y'])[x'])
    ensures r.Ok? ==> forall x': nat, y': nat :: x' < n.width && y' < y ==> Get(r.value, x', y') == Get(n, x', y')
    decreases |rows| - y
  {
    if y == |rows| then Ok(n)
    else if |rows[y]| == 0 then Err(EmptyRowCandidates(y))
    else
      var cons := FindConsensus(rows[y]);
      var mid := PaintRow(n, y, cons, 0);
      var r := PaintRows(mid, rows, y + 1);
      if r.Ok? then PaintRowsStep(n, rows, y, mid, r.value); r else r
  }

  lemma {:induction false} PaintRowsStep(n: Nonogram, rows: seq<MaskSet>, y: nat, mid: Nonogram, r: Nonogram)
    requires n.Valid() && |rows| == n.height && SetsHaveLength(rows, n.width) && y < |rows|
    requires forall y' :: y <= y' < |rows| ==> |rows[y']| > 0
    requires SamePuzzle(mid, n) && SamePuzzle(r, mid)
    requires forall x': nat, y': nat :: x' < n.width && y' < n.height ==>
      Get(mid, x', y') == if y' == y && x' < |FindConsensus(rows[y])| then Overwrite(Get(n, x', y'), FindConsensus(rows[y])[x']) else Get(n, x', y')
    requires forall y' :: y + 1 <= y' < n.height ==> |FindConsensus(rows[y'])| == n.width
    requires forall x': nat, y': nat :: x' < n.width && y + 1 <= y' < n.height ==>
      Get(r, x', y') == Overwrite(Get(mid, x', y'), FindConsensus(rows[y'])[x'])
    requires forall x': nat, y': nat :: x' < n.width && y' < y + 1 ==> Get(r, x', y') == Get(mid, x', y')
    ensures forall y' :: y <= y' < n.height ==> |FindConsensus(rows[y'])| == n.width
    ensures forall x': nat, y': nat :: x' < n.width && y <= y' < n.height ==>
      Get(r, x', y') == Overwrite(Get(n, x', y'), FindConsensus(rows[y'])[x'])
    ensures forall x': nat, y': nat :: x' < n.width && y' < y ==> Get(r, x', y') == Get(n, x', y')
  {
    var cons := FindConsensus(rows[y]);
    assert |cons| == n.width by {
      assert forall j :: 0 <= j < |rows[y]| ==> |rows[y][j]| == n.width;
    }
    forall x': nat, y': nat | x' < n.width && y <= y' < n.height
      ensures |FindConsensus(rows[y'])| == n.width
      ensures Get(r, x', y') == Overwrite(Get(n, x', y'), FindConsensus(rows[y'])[x'])
    {
      if y' == y {
        assert Get(r, x', y') == Get(mid, x', y');
        assert Get(mid, x', y') == Overwrite(Get(n, x', y'), cons[x']);
      } else {
        assert Get(mid, x', y') == Get(n, x', y');
      }
    }
    forall x': nat, y': nat | x' < n.width && y' < y
      ensures Get(r, x', y') == Get(n, x', y')
    {
      assert Get(r, x', y') == Get(mid, x', y');
    }
  }

  /** The column half of `consensus_step`, from column `x` on. */
  function PaintColumns(n: Nonogram, cols: seq<MaskSet>, x: nat): (r: Result<Nonogram, Fault>)
    requires n.Valid() && |cols| == n.width && SetsHaveLength(cols, n.height) && x <= |cols|
    ensures r.Ok? <==> forall x' :: x <= x' < |cols| ==> |cols[x']| > 0
    ensures r.Err? ==> r.error.EmptyColumnCandidates? && x <= r.error.x < |cols| && |cols[r.error.x]| == 0
    ensures r.Ok? ==> SamePuzzle(r.value, n)
    ensures r.Ok? ==> forall x' :: x <= x' < n.width ==> |FindConsensus(cols[x'])| == n.height
    ensures r.Ok? ==> forall x': nat, y': nat :: x <= x' < n.width && y' < n.height ==>
      Get(r.value, x', y') == Overwrite(Get(n, x', y'), FindConsensus(cols[x'])[y'])
    ensures r.Ok? ==> forall x': nat, y': nat :: x' < x && y' < n.height ==> Get(r.value, x', y') == Get(n, x', y')
    decreases |cols| - x
  {
    if x == |cols| then Ok(n)
    else if |cols[x]| == 0 then Err(EmptyColumnCandidates(x))
    else
      var cons := FindConsensus(cols[x]);
      var mid := PaintColumn(n, x, cons, 0);
      var r := PaintColumns(mid, cols, x + 1);
      if r.Ok? then PaintColumnsStep(n, cols, x, mid, r.value); r else r
  }

  lemma {:induction false} PaintColumnsStep(n: Nonogram, cols: seq<MaskSet>, x: nat, mid: Nonogram, r: Nonogram)
    requires n.Valid() && |cols| == n.width && SetsHaveLength(cols, n.height) && x < |cols|
    requires forall x' :: x <= x' < |cols| ==> |cols[x']| > 0
    requires SamePuzzle(mid, n) && SamePuzzle(r, mid)
    requires forall x': nat, y': nat :: x' < n.width && y' < n.height ==>
      Get(mid, x', y') == if x' == x && y' < |FindConsensus(cols[x])| then Overwrite(Get(n, x', y'), FindConsensus(cols[x])[y']) else Get(n, x', y')
    requires forall x' :: x + 1 <= x' < n.width ==> |FindConsensus(cols[x'])| == n.height
    requires forall x': nat, y': nat :: x + 1 <= x' < n.width && y' < n.height ==>
      Get(r, x', y') == Overwrite(Get(mid, x', y'), FindConsensus(cols[x'])[y'])
    requires forall x': nat, y': nat :: x' < x + 1 && y' < n.height ==> Get(r, x', y') == Get(mid, x', y')
    ensures forall x' :: x <= x' < n.width ==> |FindConsensus(cols[x'])| == n.height
    ensures forall x': nat, y': nat :: x <= x' < n.width && y' < n.height ==>
      Get(r, x', y') == Overwrite(Get(n, x', y'), FindConsensus(cols[x'])[y'])
    ensures forall x': nat, y': nat :: x' < x && y' < n.height ==> Get(r, x', y') == Get(n, x', y')
  {
    var cons := FindConsensus(cols[x]);
    assert |cons| == n.height by {
      assert forall j :: 0 <= j < |cols[x]| ==> |cols[x][j]| == n.height;
    }
    forall x': nat, y': nat | x <= x' < n.width && y' < n.height
      ensures |FindConsensus(cols[x'])| == n.height
      ensures Get(r, x', y') == Overwrite(Get(n, x', y'), FindConsensus(cols[x'])[y'])
    {
      if x' == x {
        assert Get(r, x', y') == Get(mid, x', y');
        assert Get(mid, x', y') == Overwrite(Get(n, x', y'), cons[y']);
      } else {
        assert Get(mid, x', y') == Get(n, x', y');
      }
    }
    forall x': nat, y': nat | x' < x && y' < n.height
      ensures Get(r, x', y') == Get(n, x', y')
    {
      assert Get(r, x', y') == Get(mid, x', y');
    }
  }

  /** The consensus of row `y`'s candidates; it spans the whole row. */
  function RowConsensus(s: Solver, y: nat): (c: Mask)
    requires Inv(s) && y < |s.rows| && |s.rows[y]| > 0
    ensures |c| == s.nono.width
  {
    assert forall j :: 0 <= j < |s.rows[y]| ==> |s.rows[y][j]| == s.nono.width;
    FindConsensus(s.rows[y])
  }

  /** The consensus of column `x`'s candidates; it spans the whole column. */
  function ColumnConsensus(s: Solver, x: nat): (c: Mask)
    requires Inv(s) && x < |s.cols| && |s.cols[x]| > 0
    ensures |c| == s.nono.height
  {
    assert forall j :: 0 <= j < |s.cols[x]| ==> |s.cols[x][j]| == s.nono.height;
    FindConsensus(s.cols[x])
  }

  /** No row and no column has run out of candidates. */
  predicate NoEmptySet(s: Solver) {
    && (forall y :: 0 <= y < |s.rows| ==> |s.rows[y]| > 0)
    && (forall x :: 0 <= x < |s.cols| ==> |s.cols[x]| > 0)
  }

  /** `consensus_step`: rows first, then columns, each decided consensus
      cell overwriting the grid without a conflict check, so on a conflict
      the column wins. Cells where both consensuses are Undecided keep
      their value. A line without candidates is the source's panic. */
  function ConsensusStep(s: Solver): (r: Result<Solver, Fault>)
    requires Inv(s)
    ensures r.Ok? <==> NoEmptySet(s)
    ensures r.Err? ==> match r.error
      case EmptyRowCandidates(y) => y < |s.rows| && |s.rows[y]| == 0
      case EmptyColumnCandidates(x) => x < |s.cols| && |s.cols[x]| == 0
    ensures r.Ok? ==> r.value.rows == s.rows && r.value.cols == s.cols && SamePuzzle(r.value.nono, s.nono)
    ensures r.Ok? ==> Inv(r.value)
    ensures r.Ok? ==> forall x: nat, y: nat :: x < s.nono.width && y < s.nono.height ==>
      Get(r.value.nono, x, y) == Overwrite(Overwrite(Get(s.nono, x, y), RowConsensus(s, y)[x]), ColumnConsensus(s, x)[y])
  {
    var painted :- PaintRows(s.nono, s.rows, 0);
    var n :- PaintColumns(painted, s.cols, 0);
    ConsensusStepCells(s, painted, n);
    Ok(s.(nono := n))
  }

  lemma {:induction false} ConsensusStepCells(s: Solver, painted: Nonogram, n: Nonogram)
    requires Inv(s) && NoEmptySet(s)
    requires SamePuzzle(painted, s.nono) && SamePuzzle(n, painted)
    requires forall x': nat, y': nat :: x' < s.nono.width && y' < s.nono.height ==>
      Get(painted, x', y') == Overwrite(Get(s.nono, x', y'), FindConsensus(s.rows[y'])[x'])
    requires forall x': nat, y': nat :: x' < s.nono.width && y' < s.nono.height ==>
      Get(n, x', y') == Overwrite(Get(painted, x', y'), FindConsensus(s.cols[x'])[y'])
    ensures forall x: nat, y: nat :: x < s.nono.width && y < s.nono.height ==>
      Get(n, x, y) == Overwrite(Overwrite(Get(s.nono, x, y), RowConsensus(s, y)[x]), ColumnConsensus(s, x)[y])
  {
    forall x: nat, y: nat | x < s.nono.width && y < s.nono.height
      ensures Get(n, x, y) == Overwrite(Overwrite(Get(s.nono, x, y), RowConsensus(s, y)[x]), ColumnConsensus(s, x)[y])
    {
      assert Get(painted, x, y) == Overwrite(Get(s.nono, x, y), RowConsensus(s, y)[x]);
    }
  }

  /** A cell on which neither its row's nor its column's candidates agree
      is left exactly as it was. */
  lemma {:induction false} ConsensusStepKeepsUndecidedPositions(s: Solver, x: nat, y: nat)
    requires Inv(s) && NoEmptySet(s) && x < s.nono.width && y < s.nono.height
    requires RowConsensus(s, y)[x] == Undecided && ColumnConsensus(s, x)[y] == Undecided
    ensures ConsensusStep(s).Ok?
    ensures Get(ConsensusStep(s).value.nono, x, y) == Get(s.nono, x, y)
  {
  }

  /** A second consensus step right after a first changes nothing: the
      consensus depends on the candidate sets only, which it leaves alone. */
  lemma {:induction false} ConsensusStepIdempotent(s: Solver)
    requires Inv(s) && NoEmptySet(s)
    ensures ConsensusStep(s).Ok? && ConsensusStep(ConsensusStep(s).value) == ConsensusStep(s)
  {
    var t := ConsensusStep(s).value;
    var u := ConsensusStep(t).value;
    forall x: nat, y: nat | x < s.nono.width && y < s.nono.height
      ensures Get(u.nono, x, y) == Get(t.nono, x, y)
    {
      assert RowConsensus(t, y) == RowConsensus(s, y);
      assert ColumnConsensus(t, x) == ColumnConsensus(s, x);
    }
    CellsDetermineGrid(u.nono, t.nono);
  }

  /** `filter_step`: each row's candidates are filtered against the grid's
      row, each column's against the grid's column; the grid is read only. */
  function FilterStep(s: Solver): (r: Solver)
    requires Inv(s)
    ensures r.nono == s.nono && |r.rows| == |s.rows| && |r.cols| == |s.cols|
    ensures Inv(r)
    ensures forall y :: 0 <= y < |s.rows| ==> IsSubsequence(r.rows[y], s.rows[y])
    ensures forall x :: 0 <= x < |s.cols| ==> IsSubsequence(r.cols[x], s.cols[x])
    ensures forall y, m :: 0 <= y < |s.rows| ==>
      (m in r.rows[y] <==> m in s.rows[y] && CanPlace(Row(s.nono, y).value, m))
    ensures forall x, m :: 0 <= x < |s.cols| ==>
      (m in r.cols[x] <==> m in s.cols[x] && CanPlace(Column(s.nono, x).value, m))
    ensures forall y, m :: 0 <= y < |s.rows| ==>
      multiset(r.rows[y])[m] == if CanPlace(Row(s.nono, y).value, m) then multiset(s.rows[y])[m] else 0
    ensures forall x, m :: 0 <= x < |s.cols| ==>
      multiset(r.cols[x])[m] == if CanPlace(Column(s.nono, x).value, m) then multiset(s.cols[x])[m] else 0
  {
    var rows := seq(|s.rows|, y requires 0 <= y < |s.rows| => Retain(s.rows[y], Row(s.nono, y).value));
    var cols := seq(|s.cols|, x requires 0 <= x < |s.cols| => Retain(s.cols[x], Column(s.nono, x).value));
    assert forall y, j :: 0 <= y < |rows| && 0 <= j < |rows[y]| ==> rows[y][j] in rows[y];
    assert forall x, j :: 0 <= x < |cols| && 0 <= j < |cols[x]| ==> cols[x][j] in cols[x];
    Solver(rows, cols, s.nono)
  }

  /** Deletion only: `t` has the puzzle of `s` and each of its candidate
      sets is a subsequence of the corresponding set of `s`. */
  predicate Shrunk(t: Solver, s: Solver) {
    && SamePuzzle(t.nono, s.nono)
    && |t.rows| == |s.rows| && |t.cols| == |s.cols|
    && (forall y :: 0 <= y < |s.rows| ==> IsSubsequence(t.rows[y], s.rows[y]))
    && (forall x :: 0 <= x < |s.cols| ==> IsSubsequence(t.cols[x], s.cols[x]))
  }

  lemma {:induction false} ShrunkReflexive(s: Solver)
    requires s.nono.Valid()
    ensures Shrunk(s, s)
  {
    forall y | 0 <= y < |s.rows|
      ensures IsSubsequence(s.rows[y], s.rows[y])
    {
      SubsequenceReflexive(s.rows[y]);
    }
    forall x | 0 <= x < |s.cols|
      ensures IsSubsequence(s.cols[x], s.cols[x])
    {
      SubsequenceReflexive(s.cols[x]);
    }
  }

  lemma {:induction false} ShrunkTransitive(a: Solver, b: Solver, c: Solver)
    requires Shrunk(a, b) && Shrunk(b, c)
    ensures Shrunk(a, c)
  {
    forall y | 0 <= y < |c.rows|
      ensures IsSubsequence(a.rows[y], c.rows[y])
    {
      SubsequenceTransitive(a.rows[y], b.rows[y], c.rows[y]);
    }
    forall x | 0 <= x < |c.cols|
      ensures IsSubsequence(a.cols[x], c.cols[x])
    {
      SubsequenceTransitive(a.cols[x], b.cols[x], c.cols[x]);
    }
  }

  /** One iteration of the loop body of `solve`: a consensus step, then a
      filter step against the grid it produced. */
  function Round(s: Solver): (r: Result<Solver, Fault>)
    requires Inv(s)
    ensures r.Ok? <==> NoEmptySet(s)
    ensures r.Ok? ==> Inv(r.value) && Shrunk(r.value, s)
  {
    var t :- ConsensusStep(s);
    Ok(FilterStep(t))
  }

  /** The `while` loop of `solve`, given `fuel` rounds: it stops as soon as
      no cell is Undecided, and otherwise runs a consensus step and a filter
      step. The source has no progress guard, so without fuel the loop need
      not end. */
  function SolveLoop(s: Solver, fuel: nat): (o: Outcome)
    requires Inv(s)
    ensures o.Finished? ==> Inv(o.solver) && Shrunk(o.solver, s) && Undecided !in o.solver.nono.cells
    ensures o.OutOfFuel? ==> Inv(o.solver) && Shrunk(o.solver, s) && Undecided in o.solver.nono.cells
    ensures Undecided !in s.nono.cells ==> o == Finished(s)
    decreases fuel
  {
    if Undecided !in s.nono.cells then
      ShrunkReflexive(s);
      Finished(s)
    else if fuel == 0 then
      ShrunkReflexive(s);
      OutOfFuel(s)
    else
      match Round(s)
      case Err(f) => Panicked(f)
      case Ok(next) =>
        var o := SolveLoop(next, fuel - 1);
        if o.Panicked? then o
        else
          ShrunkTransitive(o.solver, next, s);
          o
  }

  /** `solve`: clear the grid, then loop. */
  function Solve(s: Solver, fuel: nat): (o: Outcome)
    requires Inv(s)
    ensures o.Finished? ==> Inv(o.solver) && Shrunk(o.solver, s) && Undecided !in o.solver.nono.cells
    ensures o.OutOfFuel? ==> Inv(o.solver) && Shrunk(o.solver, s) && Undecided in o.solver.nono.cells
  {
    var cleared := s.(nono := ClearSolution(s.nono));
    var o := SolveLoop(cleared, fuel);
    if o.Panicked? then o
    else
      assert Shrunk(o.solver, cleared);
      o
  }
}

=== FILE: text.dfy ===
/** The string primitives the puzzle parser (src/parser.rs) relies on,
    written out: `char::is_whitespace` and `str::trim`, `str::find(' ')`,
    `str::split(",")` and `str::parse::<usize>`. Strings are sequences of
    Unicode scalar values, as Rust's `char`s are. */
module Text {
  import opened Results

  /** Largest `usize` on a 64-bit target. */
  const UsizeMax: nat := 0xFFFF_FFFF_FFFF_FFFF

  /** `char::is_whitespace`: the Unicode White_Space property. */
  predicate IsWhitespace(c: char) {
    || ('\U{0009}' <= c <= '\U{000D}')
    || c == '\U{0020}' || c == '\U{0085}' || c == '\U{00A0}' || c == '\U{1680}'
    || ('\U{2000}' <= c <= '\U{200A}')
    || c == '\U{2028}' || c == '\U{2029}' || c == '\U{202F}' || c == '\U{205F}' || c == '\U{3000}'
  }

  predicate AllWhitespace(s: string) {
    forall i :: 0 <= i < |s| ==> IsWhitespace(s[i])
  }

  /** How many whitespace characters `s` starts with. */
  function LeadingWhitespace(s: string): (n: nat)
    ensures n <= |s|
    ensures forall i :: 0 <= i < n ==> IsWhitespace(s[i])
    ensures n == |s| || !IsWhitespace(s[n])
  {
    if |s| == 0 || !IsWhitespace(s[0]) then 0
    else
      var n := LeadingWhitespace(s[1..]);
      assert forall i :: 1 <= i <= n ==> s[i] == s[1..][i - 1];
      n + 1
  }

  /** How many whitespace characters `s` ends with. */
  function TrailingWhitespace(s: string): (n: nat)
    ensures n <= |s|
    ensures forall i :: |s| - n <= i < |s| ==> IsWhitespace(s[i])
    ensures n == |s| || !IsWhitespace(s[|s| - 1 - n])
  {
    if |s| == 0 || !IsWhitespace(s[|s| - 1]) then 0
    else
      var n := TrailingWhitespace(s[..|s| - 1]);
      assert forall i :: |s| - 1 - n <= i < |s| - 1 ==> s[i] == s[..|s| - 1][i];
      n + 1
  }

  /** The leading whitespace count is the one position where whitespace
      stops. */
  lemma {:induction false} LeadingWhitespaceIs(s: string, n: nat)
    requires n <= |s| && forall i :: 0 <= i < n ==> IsWhitespace(s[i])
    requires n == |s| || !IsWhitespace(s[n])
    ensures LeadingWhitespace(s) == n
  {
  }

  /** The trailing whitespace count is the one position, from the end,
      where whitespace stops. */
  lemma {:induction false} TrailingWhitespaceIs(s: string, n: nat)
    requires n <= |s| && forall i :: |s| - n <= i < |s| ==> IsWhitespace(s[i])
    requires n == |s| || !IsWhitespace(s[|s| - 1 - n])
    ensures TrailingWhitespace(s) == n
  {
  }

  /** `str::trim`: the infix of `s` left after dropping whitespace at both
      ends. */
  function Trim(s: string): (r: string)
    ensures |r| <= |s|
    ensures |r| == 0 || (!IsWhitespace(r[0]) && !IsWhitespace(r[|r| - 1]))
  {
    var a := LeadingWhitespace(s);
    if a == |s| then []
    else
      var b := |s| - TrailingWhitespace(s);
      assert a < b;
      s[a..b]
  }

  /** What trimming keeps is an infix of the text with only whitespace
      before and after it. */
  lemma {:induction false} TrimInfix(s: string)
    ensures exists i, j :: 0 <= i <= j <= |s| && Trim(s) == s[i..j] && AllWhitespace(s[..i]) && AllWhitespace(s[j..])
  {
    var a := LeadingWhitespace(s);
    if a == |s| {
      assert Trim(s) == s[a..a];
      assert AllWhitespace(s[..a]);
    } else {
      var b := |s| - TrailingWhitespace(s);
      assert AllWhitespace(s[..a]);
      assert AllWhitespace(s[b..]);
    }
  }

  /** Whitespace padding around a text with no whitespace at its ends is
      exactly what trimming removes. */
  lemma {:induction false} TrimPadding(pre: string, s: string, post: string)
    requires AllWhitespace(pre) && AllWhitespace(post)
    requires |s| == 0 || (!IsWhitespace(s[0]) && !IsWhitespace(s[|s| - 1]))
    ensures Trim(pre + s + post) == s
  {
    var x := pre + s + post;
    if |s| == 0 {
      assert AllWhitespace(x) by {
        forall i | 0 <= i < |x|
          ensures IsWhitespace(x[i])
        {
          if i < |pre| {
            assert x[i] == pre[i];
          } else {
            assert x[i] == post[i - |pre|];
          }
        }
      }
      AllWhitespaceTrimsToEmpty(x);
    } else {
      assert x[|pre|] == s[0];
      assert forall i :: 0 <= i < |pre| ==> x[i] == pre[i];
      LeadingWhitespaceIs(x, |pre|);
      assert x[|x| - 1 - |post|] == s[|s| - 1];
      assert forall i :: |x| - |post| <= i < |x| ==> x[i] == post[i - (|x| - |post|)];
      TrailingWhitespaceIs(x, |post|);
      assert x[|pre|..|x| - |post|] == s;
    }
  }

  lemma {:induction false} AllWhitespaceTrimsToEmpty(s: string)
    requires AllWhitespace(s)
    ensures Trim(s) == []
  {
    LeadingWhitespaceIs(s, |s|);
  }

  /** A string trims to nothing exactly when it is all whitespace. */
  lemma {:induction false} TrimEmptyIffWhitespace(s: string)
    ensures |Trim(s)| == 0 <==> AllWhitespace(s)
  {
    if AllWhitespace(s) {
      AllWhitespaceTrimsToEmpty(s);
    }
  }

  /** Trimming is idempotent. */
  lemma {:induction false} TrimIdempotent(s: string)
    ensures Trim(Trim(s)) == Trim(s)
  {
    TrimPadding([], Trim(s), []);
    assert [] + Trim(s) + [] == Trim(s);
  }

  /** `str::find(' ')`: the position of the first space, if any. */
  function FindSpace(s: string): (r: Option<nat>)
    ensures r.None? <==> ' ' !in s
    ensures r.Some? ==> r.value < |s| && s[r.value] == ' ' && ' ' !in s[..r.value]
  {
    if |s| == 0 then None
    else if s[0] == ' ' then Some(0)
    else match FindSpace(s[1..])
      case None => None
      case Some(i) =>
        assert s[..i + 1] == [s[0]] + s[1..][..i];
        Some(i + 1)
  }

  /** `str::split(sep)`: the pieces between the separators, in order; there
      is always at least one piece, possibly empty. */
  function Split(s: string, sep: char): (r: seq<string>)
    ensures |r| >= 1
    ensures forall i :: 0 <= i < |r| ==> sep !in r[i]
    ensures Join(r, sep) == s
    decreases |s|
  {
    if |s| == 0 then [""]
    else
      var rest := Split(s[1..], sep);
      if s[0] == sep then
        [""] + rest
      else
        assert s == [s[0]] + s[1..];
        [[s[0]] + rest[0]] + rest[1..]
  }

  /** The pieces glued back with the separator between them. */
  function Join(pieces: seq<string>, sep: char): string
    requires |pieces| >= 1
  {
    if |pieces| == 1 then pieces[0] else pieces[0] + [sep] + Join(pieces[1..], sep)
  }

  /** Splitting inverts joining pieces that do not contain the separator. */
  lemma {:induction false} SplitJoin(pieces: seq<string>, sep: char)
    requires |pieces| >= 1
    requires forall i :: 0 <= i < |pieces| ==> sep !in pieces[i]
    ensures Split(Join(pieces, sep), sep) == pieces
    decreases |pieces|, |pieces[0]|
  {
    var p := pieces[0];
    if |p| == 0 {
      if |pieces| > 1 {
        SplitJoin(pieces[1..], sep);
        JoinEmptyFirst(pieces, sep);
      }
    } else {
      var tail := [p[1..]] + pieces[1..];
      assert sep !in tail[0];
      assert forall i :: 1 <= i < |tail| ==> tail[i] == pieces[i];
      SplitJoin(tail, sep);
      JoinCons(pieces, sep);
      assert [p[0]] + tail[0] == p;
      assert tail[1..] == pieces[1..];
    }
  }

  /** Joining after an empty first piece starts with the separator. */
  lemma {:induction false} JoinEmptyFirst(pieces: seq<string>, sep: char)
    requires |pieces| > 1 && |pieces[0]| == 0
    ensures Join(pieces, sep) == [sep] + Join(pieces[1..], sep)
  {
  }

  /** Joining starts with the first character of the first piece. */
  lemma {:induction false} JoinCons(pieces: seq<string>, sep: char)
    requires |pieces| >= 1 && |pieces[0]| > 0
    ensures var joined := Join(pieces, sep);
      joined[0] == pieces[0][0] && joined[1..] == Join([pieces[0][1..]] + pieces[1..], sep)
  {
    var p := pieces[0];
    var tail := [p[1..]] + pieces[1..];
    if |pieces| > 1 {
      assert tail[1..] == pieces[1..];
      assert Join(pieces, sep)[1..] == p[1..] + [sep] + Join(pieces[1..], sep);
    }
  }

  /** Joining ends with the last character of the last piece. */
  lemma {:induction false} JoinLast(pieces: seq<string>, sep: char)
    requires |pieces| >= 1 && |pieces[|pieces| - 1]| > 0
    ensures var joined, last := Join(pieces, sep), pieces[|pieces| - 1];
      |joined| > 0 && joined[|joined| - 1] == last[|last| - 1]
    decreases |pieces|
  {
    if |pieces| > 1 {
      JoinLast(pieces[1..], sep);
    }
  }

  predicate IsDigit(c: char) {
    '0' <= c <= '9'
  }

  predicate AllDigits(d: string) {
    forall i :: 0 <= i < |d| ==> IsDigit(d[i])
  }

  function DigitValue(c: char): nat
    requires IsDigit(c)
  {
    (c as int - '0' as int) as nat
  }

  /** The decimal value of a digit string, most significant digit first. */
  function DigitsValue(d: string): nat
    requires AllDigits(d)
  {
    if |d| == 0 then 0 else DigitsValue(d[..|d| - 1]) * 10 + DigitValue(d[|d| - 1])
  }

  /** `str::parse::<usize>`: an optional `+` sign, then at least one ASCII
      digit and nothing else; a value above `usize::MAX` overflows. */
  function ParseUsize(s: string): (r: Option<nat>)
    ensures r.Some? ==> r.value <= UsizeMax
    ensures r.Some? <==> var d := DigitPart(s);
      && |d| > 0 && AllDigits(d) && DigitsValue(d) <= UsizeMax
    ensures r.Some? ==> r.value == DigitsValue(DigitPart(s))
  {
    var d := DigitPart(s);
    if |d| == 0 || !AllDigits(d) then None
    else
      var v := DigitsValue(d);
      if v > UsizeMax then None else Some(v)
  }

  /** What follows the optional leading `+`. */
  function DigitPart(s: string): (d: string)
    ensures d == s || (|s| > 0 && s[0] == '+' && d == s[1..])
  {
    if |s| > 0 && s[0] == '+' then s[1..] else s
  }

  /** Decimal rendering of a number, without sign or leading zeros. */
  function NatToString(n: nat): (s: string)
    ensures |s| > 0 && AllDigits(s)
    ensures s[0] != '0' || n == 0
    decreases n
  {
    var c := ('0' as int + n % 10) as char;
    if n < 10 then [c] else NatToString(n / 10) + [c]
  }

  lemma {:induction false} DigitsOfNatToString(n: nat)
    ensures DigitsValue(NatToString(n)) == n
    decreases n
  {
    var s := NatToString(n);
    if n >= 10 {
      DigitsOfNatToString(n / 10);
      assert s[..|s| - 1] == NatToString(n / 10);
    }
  }

  /** Parsing inverts rendering for every value a `usize` can hold, with or
      without a leading `+`. */
  lemma {:induction false} ParseNatToString(n: nat)
    requires n <= UsizeMax
    ensures ParseUsize(NatToString(n)) == Some(n)
    ensures ParseUsize("+" + NatToString(n)) == Some(n)
  {
    DigitsOfNatToString(n);
    assert DigitPart("+" + NatToString(n)) == NatToString(n);
  }

  /** Strings without a digit after the optional sign never parse: in
      particular the empty string, a lone sign and a negative number. */
  lemma {:induction false} ParseRejectsNonDigits(s: string)
    requires |DigitPart(s)| == 0 || !IsDigit(DigitPart(s)[0])
    ensures ParseUsize(s).None?
  {
  }
}
